=== FILE: README.md ===
# inbox1 mail core in Dafny

This project models the logic of the inbox1 React Native mail client that sits outside rendering. It covers six parts:

- **Response normaliser** (`fetchInboxSummaries.ts`). Every raw record the mail backend returns becomes one `EmailSummary`. Each field is resolved from an ordered list of candidate keys, and each field has a default. The protocol guard runs before the backend is asked.
- **Snippet summariser** (`summarize.ts`). It trims the body, collapses whitespace runs into single spaces, and puts the first 140 characters after the subject.
- **Account form** (`SettingsScreen.tsx`). This covers:
  - the default form;
  - loading an existing account into the form;
  - the `isPortValid` and `canSave` checks;
  - the account and secret that `handleSave` builds.
- **In-memory stores** (`accounts.ts`, `cache.ts`). The account store is two JavaScript `Map`s kept in step. The cache is one `Map`.
- **Android native module** (`MailCore2Module.kt`). This covers:
  - config validation;
  - the security-to-connection-type mapping;
  - `formatAddress`;
  - the entry built for each fetched message;
  - the empty-search short cut of `fetchUnread`.
- **The seam between the two sides.** What the native module would make of a saved account, and what the normaliser makes of the native entries. No JavaScript code in the repository calls the native module yet: `createImapClient` in `src/mail/imap.ts` is a stub. These facts describe the intended wiring, not a call the app makes.

Modules, one per file:

| file | module | models |
|---|---|---|
| `wrappers.dfy` | `Wrappers` | `Option` and `Result` |
| `text.dfy` | `Text` | JavaScript and Kotlin whitespace, `trim`, ASCII lower-casing, decimal rendering and parsing |
| `values.dfy` | `Values` | loosely typed JavaScript values, property access, `??`, `String(...)` |
| `email.dfy` | `Email` | `EmailSummary` |
| `normalize.dfy` | `InboxNormalizer` | `fetchInboxSummaries.ts` |
| `normalize_facts.dfy` | `NormalizerFacts` | properties relating several parts of the normaliser |
| `summarize.dfy` | `Summarizer` | `summarize.ts` |
| `ordered_map.dfy` | `OrderedMaps` | a JavaScript `Map` with string keys and its insertion order |
| `accounts.dfy` | `Accounts` | `accounts.ts` |
| `cache.dfy` | `Cache` | `cache.ts` |
| `settings.dfy` | `Settings` | the form logic of `SettingsScreen.tsx` |
| `mailcore_native.dfy` | `MailCoreNative` | `MailCore2Module.kt` |
| `bridge.dfy` | `NativeBridge` | the intended wiring: a saved account as a native config, and the native entries fed to the normaliser |

Several things that are I/O or environment-dependent in the source are parameters of the model:

- the backend call (`fetchInbox`);
- the IMAP search and header fetch;
- the locale date rendering (`toLocaleDateString`, `String(new Date(...))`);
- the UTC `SimpleDateFormat`;
- the rendering of numbers other than integers of magnitude at most 2^53;
- the clock (`Date.now()`).

Some source inconsistencies are resolved as follows:

- `Account` carries a `security` field. `SettingsScreen.tsx` and `fetchInboxSummaries.ts` use one, but `accounts.ts` does not declare it.
- The backend answers with a sequence of raw values or fails. `imap.ts` declares `fetchInbox` as returning nothing.
- The raw id is the first candidate key whose value is neither `null` nor `undefined`. An empty string counts as present, because `??` skips only `null` and `undefined`.

## Model

| member | source | states |
|---|---|---|
| Text.TrimStart | src/ai/summarize.ts:10 | Leading whitespace removal returns a suffix of the input. That suffix is empty or starts with a non-whitespace character, and everything removed is JavaScript whitespace. |
| Text.TrimEnd | src/ai/summarize.ts:10 | Trailing whitespace removal returns a prefix of the input. That prefix is empty or ends with a non-whitespace character, and everything removed is whitespace. |
| Text.Trim | src/screens/SettingsScreen.tsx:74-75 | `trim()` is no longer than its input and neither starts nor ends with whitespace. It is empty exactly when the input is all whitespace. |
| Text.TrimSpec | src/ai/summarize.ts:10 | `trim()` returns exactly the slice between the leading and the trailing whitespace. Both removed parts are whitespace, and the result neither starts nor ends with whitespace. |
| Text.TrimEmptyIffBlank | src/screens/SettingsScreen.tsx:74-75 | `s.trim().length > 0` holds exactly when `s` has a non-whitespace character. |
| Text.TrimIdempotent | src/screens/SettingsScreen.tsx:90-101 | Trimming an already trimmed value changes nothing. |
| Text.LowerAscii | android/app/src/main/java/com/inbox1/mailcore2/MailCore2Module.kt:32 | Lower-casing keeps the length, lowers each ASCII capital and keeps every other character. |
| Text.NatToDecimal | src/mail/fetchInboxSummaries.ts:60 | The decimal text of a number is non-empty, all digits, and starts with `0` only for zero. |
| Text.DigitsValueOfDecimal | src/screens/SettingsScreen.tsx:63 | Reading the decimal text of a number back gives the number. |
| Text.NatToDecimalInjective | src/mail/fetchInboxSummaries.ts:60 | Different numbers have different decimal texts. |
| Text.ParseIntegerOfDecimal | src/screens/SettingsScreen.tsx:63-70 | `Number(String(port))` gives back the port for every integer port. |
| Text.ParseInteger | src/screens/SettingsScreen.tsx:70 | `Number(text)` of a blank text is 0. Any other text that reads as an integer contains a digit. |
| Text.ParseIntegerPadded | src/screens/SettingsScreen.tsx:70 | Whitespace, an optional `+` or `-`, one or more digits and whitespace read as the integer the sign and digits denote, leading zeros included (`Number(" 0993 ")` is 993). |
| Text.ParseIntegerShape | src/screens/SettingsScreen.tsx:70 | Conversely, a text that is not blank reads as an integer only if it has that form, and then as the integer its sign and digits denote. |
| Text.DigitsValueLeadingZero | src/screens/SettingsScreen.tsx:70 | A leading zero does not change the value of a digit string. |
| Text.IntToDecimal | src/screens/SettingsScreen.tsx:63 | `String(n)` of an integer is canonical text: digits with no leading zero, or `-` and such digits; it starts with `-` exactly for negative numbers. |
| Text.CanonicalIntegerText | src/screens/SettingsScreen.tsx:63-70 | Canonical integer text reads as an integer whose `String` is that same text, so each integer has one canonical text. |
| Values.FirstPresent | src/mail/fetchInboxSummaries.ts:53-59 | An `a ?? b ?? ...` chain is non-nullish exactly when some key holds a non-nullish value. It is then the value of the first such key, every earlier key being nullish; otherwise it is `undefined`. |
| Values.NumberText | src/mail/fetchInboxSummaries.ts:86 | `String(x)` of an integer of magnitude at most 2^53 is canonical text (no leading zero, `-` only for negatives) that reads back as that integer; for a non-negative one it is all digits. Other numbers are rendered by the platform. |
| Values.Stringify | src/mail/fetchInboxSummaries.ts:86 | `String(v)` keeps a string as it is and renders an exactly representable integer as canonical text that reads back as it. It renders `null` as "null" and `undefined` as "undefined". |
| InboxNormalizer.PickFirstString | src/mail/fetchInboxSummaries.ts:8-16 | A result exists exactly when some key holds a string with a non-whitespace character. The result is that string, untrimmed, for a key before which no key qualifies. |
| InboxNormalizer.FirstLeaf | src/mail/fetchInboxSummaries.ts:22-24 | Descending through first elements of non-empty arrays ends at a value that is not a non-empty array. A value that is not a non-empty array is its own leaf. |
| InboxNormalizer.FormatFrom | src/mail/fetchInboxSummaries.ts:18-35 | Only the innermost first element of nested non-empty arrays counts. That element gives: itself when it is a string; `name <email>`, or whichever part is present, or `""` when it is an object; `""` otherwise. |
| InboxNormalizer.FormatReceivedAt | src/mail/fetchInboxSummaries.ts:37-49 | A string passes through verbatim. A finite number below 1e12 is rendered as the locale date at that many seconds, and a larger one as the locale date at that many milliseconds. A date is rendered as its locale date. Anything else becomes "Unknown". |
| InboxNormalizer.ResolveFrom | src/mail/fetchInboxSummaries.ts:61-87 | The sender is never empty. It is the formatted first present `from`/`sender`/`fromAddress` value when that is not empty, and "Unknown sender" when it is. |
| InboxNormalizer.ResolveId | src/mail/fetchInboxSummaries.ts:53-86 | With no id key holding a value other than null or undefined, the id is `message-<index>`. Otherwise it is `String(...)` of the value of such a key. |
| InboxNormalizer.Summarize | src/mail/fetchInboxSummaries.ts:85-92 | The summary's sender is never empty. Its subject is "(no subject)" or the visible string of a subject key, and its snippet is `""` or the visible string of a snippet key. An unread flag is present only when one of `unread`, `isUnread` or `isRead` is a boolean. |
| InboxNormalizer.ResolveUnread | src/mail/fetchInboxSummaries.ts:76-83 | A boolean `unread` wins, then a boolean `isUnread`, then the negation of a boolean `isRead`. The flag is absent exactly when none of the three is a boolean. |
| InboxNormalizer.ToEmailSummary | src/mail/fetchInboxSummaries.ts:51-54 | A `null` or `undefined` record fails, naming its position. Every other record is summarised. |
| InboxNormalizer.MapRecords | src/mail/fetchInboxSummaries.ts:113 | `map` succeeds exactly when every conversion succeeds, with one result per record in order. Otherwise it fails with the error of the first failing record. |
| InboxNormalizer.SummariesOf | src/mail/fetchInboxSummaries.ts:113 | Summarising succeeds exactly when no record is nullish. Summary `i` is then the summary of record `i` at index `i`. |
| InboxNormalizer.FirstNullRecord | src/mail/fetchInboxSummaries.ts:113 | A failed summarising names the first nullish record. |
| InboxNormalizer.FetchInboxSummaries | src/mail/fetchInboxSummaries.ts:95-114 | Any protocol but IMAP fails with the POP3 message, whatever the backend would answer. A backend failure is passed on. Otherwise there is one summary per raw record, in order, with its position as index, or a failure at the first nullish record. |
| NormalizerFacts.PickFirstStringIsFirst | src/mail/fetchInboxSummaries.ts:9-13 | The first key in list order that holds visible text determines the result. |
| NormalizerFacts.FormatFromNameAndAddress | src/mail/fetchInboxSummaries.ts:25-31 | `{name:"A",email:"a@x.com"}` formats as `A <a@x.com>`. |
| NormalizerFacts.FormatFromFirstOfList | src/mail/fetchInboxSummaries.ts:22-31 | `[{name:"A",email:"a@x.com"},{name:"B"}]` formats as `A <a@x.com>`. |
| NormalizerFacts.FormatFromFirstElement | src/mail/fetchInboxSummaries.ts:22-24 | A non-empty array of senders formats as its first element, whatever follows it. |
| NormalizerFacts.ReceivedAtSecondsOrMilliseconds | src/mail/fetchInboxSummaries.ts:41-48 | A number below 1e12 renders like the date at that many seconds, and a larger one like the date at that many milliseconds. NaN and the infinities render as "Unknown". |
| NormalizerFacts.IdFromFirstPresentKey | src/mail/fetchInboxSummaries.ts:53-60 | The id is the `String(...)` of the first id key that is neither null nor undefined. |
| NormalizerFacts.EmptyIdIsKept | src/mail/fetchInboxSummaries.ts:54 | An empty-string `id` is kept, so the id is `""`. |
| NormalizerFacts.FallbackIdsDistinct | src/mail/fetchInboxSummaries.ts:60 | A record with no id key gets `message-<index>`. Two such records at different positions get different ids. |
| NormalizerFacts.EmptyFromShadowsSender | src/mail/fetchInboxSummaries.ts:61 | A present but empty `from` hides `sender`, so the sender is "Unknown sender". |
| NormalizerFacts.BareRecordFields | src/mail/fetchInboxSummaries.ts:53-83 | Every field of an empty object takes its default. |
| NormalizerFacts.EmptyRecordDefaults | src/mail/fetchInboxSummaries.ts:85-92 | `{}` summarises to the positional id, "Unknown sender", "(no subject)", empty snippet, "Unknown" date and no unread flag. |
| NormalizerFacts.SubjectAndSnippetDefaults | src/mail/fetchInboxSummaries.ts:62-71 | With no visible subject the subject is "(no subject)", and with no visible snippet the snippet is empty. |
| NormalizerFacts.SummaryInvariants | src/mail/fetchInboxSummaries.ts:62-87 | Every summary has a non-empty sender and a subject with visible text. Its snippet is empty or has visible text. |
| NormalizerFacts.GuardBeforeFetch | src/mail/fetchInboxSummaries.ts:107-109 | A non-IMAP account fails with the same error whatever the backend does. |
| NormalizerFacts.EmptyInbox | src/mail/fetchInboxSummaries.ts:111-113 | An empty response gives an empty list. |
| Summarizer.CollapseSpaces | src/ai/summarize.ts:10 | `replace(/\s+/g, ' ')` leaves no two whitespace characters in a row and no whitespace but plain spaces. It keeps the sequence of whitespace-separated words exactly, keeps whether each end is whitespace, and is empty only for empty input. |
| Summarizer.Prefix | src/ai/summarize.ts:11 | `slice(0, n)` is a prefix of at most `n` characters, and the whole text when that is shorter. |
| Summarizer.SummarizeEmail | src/ai/summarize.ts:7-16 | The result always starts with `subject + ": "`. A blank body gives exactly `subject + ": (no content)"`. Otherwise the snippet is the whole normalised body when that has at most 140 characters, and exactly its first 140 characters when it is longer. |
| Summarizer.NormalizedShape | src/ai/summarize.ts:10 | The normalised body has no whitespace at either end, no two whitespace characters in a row, and only plain spaces. |
| Summarizer.NormalizeKeepsVisible | src/ai/summarize.ts:10 | Normalising keeps every non-whitespace character of the body, in order. |
| Summarizer.NormalizeKeepsWords | src/ai/summarize.ts:10 | Normalising keeps the sequence of whitespace-separated words of the body exactly. |
| Summarizer.CollapseFixedPoint | src/ai/summarize.ts:10 | Collapsing leaves text alone whose whitespace is already single plain spaces. |
| Summarizer.NormalizeIdempotent | src/ai/summarize.ts:10 | Normalising twice is normalising once. |
| OrderedMaps.SetValues | src/storage/accounts.ts:24 | `map.set` replaces the value of an existing key in place in `values()`, and appends the value of a new key. |
| OrderedMaps.WithoutAt | src/storage/accounts.ts:43 | Taking a key out of the insertion order, where it occurs once at position i, leaves the keys before and after it in their order. |
| OrderedMaps.DeleteValues | src/storage/accounts.ts:43 | `map.delete` of the key at position i removes exactly the i-th value from `values()` and keeps the others in order. |
| OrderedMaps.DeleteMissingValues | src/storage/accounts.ts:43 | `map.delete` of a missing key leaves `values()` as it was. |
| Accounts.EmptyStore | src/storage/accounts.ts:17-18 | The empty store satisfies the store invariant, and every lookup misses. |
| Accounts.SaveAccount | src/storage/accounts.ts:20-26 | After a save the account and the secret are found under the account's id. Every other id is untouched, and the store invariant is kept. |
| Accounts.GetAccount | src/storage/accounts.ts:28-30 | In a valid store, `getAccount` finds an account exactly when its id was saved, and the account found carries that id. |
| Accounts.GetAccountSecret | src/storage/accounts.ts:32-36 | In a valid store, `getAccountSecret` finds a secret exactly when `getAccount` finds an account under the same id. |
| Accounts.ListAccounts | src/storage/accounts.ts:38-40 | The listing has one entry per stored id, with distinct ids. Each entry is the stored account, and every stored account is listed. |
| Accounts.RemoveAccount | src/storage/accounts.ts:42-45 | After a remove both lookups miss. Every other id is untouched, and the store invariant is kept. |
| Accounts.RemoveKeepsOrder | src/storage/accounts.ts:38-45 | Removing the account listed at position i gives the old listing without that entry, the other accounts in their old order. |
| Accounts.RemoveUnknownKeepsListing | src/storage/accounts.ts:38-45 | Removing an id that is not stored leaves the listing unchanged. |
| Accounts.KeySetsAgree | src/storage/accounts.ts:17-18 | The two maps always have the same ids. |
| Accounts.SaveExistingKeepsPlace | src/storage/accounts.ts:24 | Re-saving a stored id replaces the account in place in the listing. |
| Accounts.SaveNewAppends | src/storage/accounts.ts:24 | Saving a new id appends the account to the listing. |
| Cache.EmptyCache | src/storage/cache.ts:10 | The empty cache is valid and lists nothing. |
| Cache.UpsertCachedEmail | src/storage/cache.ts:12-14 | After an upsert the message is found under its id, and every other id is untouched. The listing grows by one exactly when the id was new. |
| Cache.GetCachedEmail | src/storage/cache.ts:16-18 | In a valid cache, `getCachedEmail` finds a message exactly when its id is cached, and the message found carries that id. |
| Cache.ListCachedEmails | src/storage/cache.ts:20-22 | The listing has one entry per cached id, with distinct ids, and it includes every cached message. |
| Cache.ClearCache | src/storage/cache.ts:24-26 | After clearing, nothing is listed and every lookup misses. |
| Settings.LoadForm | src/screens/SettingsScreen.tsx:53-68 | Without an account the form is the default form. With one, the form copies its fields, the port text is the decimal `String(port)` and reads back as the port, and the password is the secret's or `""`. |
| Settings.IsPortValid | src/screens/SettingsScreen.tsx:70-72 | A valid port text is not blank and contains a digit. |
| Settings.PortTextValid | src/screens/SettingsScreen.tsx:63-72 | The decimal text of a port is valid exactly when the port lies between 1 and 65535. |
| Settings.PortIntegerText | src/screens/SettingsScreen.tsx:70-72 | A port text of whitespace, optional sign, digits and whitespace is valid exactly when the integer it denotes lies between 1 and 65535, whatever its leading zeros, sign or padding. |
| Settings.PortTextForm | src/screens/SettingsScreen.tsx:70-72 | The valid port texts are exactly the texts of that form denoting 1 to 65535. |
| Settings.ZerosPortInvalid | src/screens/SettingsScreen.tsx:70-72 | The port text "00" is invalid, since it reads as 0. |
| Settings.LeadingZeroPortValid | src/screens/SettingsScreen.tsx:70-72 | The port text "0993" is valid. |
| Settings.PaddedPortValid | src/screens/SettingsScreen.tsx:70-72 | The port text " +993 " is valid. |
| Settings.CanSave | src/screens/SettingsScreen.tsx:73-77 | A form can be saved exactly when host and username each have a non-whitespace character, the password is non-empty, and the port is valid. |
| Settings.HandleSave | src/screens/SettingsScreen.tsx:79-107 | Saving is skipped exactly when `canSave` fails or a save is running. Otherwise the record is built as follows:<br>• the id is kept, or else made from the clock;<br>• the email is the trimmed email or else the trimmed username;<br>• host and username are trimmed, and the port is parsed;<br>• protocol and security are copied, and the password is kept as typed. |
| Settings.SavedFormCanSave | src/screens/SettingsScreen.tsx:80-82 | Only a form that passes `canSave`, with no save running, is saved. |
| Settings.SaveAddressCanonical | src/screens/SettingsScreen.tsx:90-93 | The stored address is trimmed and never empty. |
| Settings.SavedIsCanonical | src/screens/SettingsScreen.tsx:88-107 | A saved account has a trimmed non-empty host, username and email, a port from 1 to 65535, and a non-empty password. |
| Settings.ReopenAndSave | src/screens/SettingsScreen.tsx:59-107 | Loading such an account into the form and saving it unchanged stores the same account and secret. |
| Settings.SaveIsStable | src/screens/SettingsScreen.tsx:59-107 | Whatever a save stores is stored again unchanged when it is reopened and saved. |
| Settings.DefaultPortParses | src/screens/SettingsScreen.tsx:38 | The default port text reads as 993. |
| Settings.DefaultFormNotSavable | src/screens/SettingsScreen.tsx:34-42 | The default form's port is valid, but the form cannot be saved. |
| MailCoreNative.LowerAsciiSpells | android/app/src/main/java/com/inbox1/mailcore2/MailCore2Module.kt:32 | Lower-casing a text gives a given lower-case word exactly when the text spells that word in any mix of cases. |
| MailCoreNative.ConnectionTypeFor | android/app/src/main/java/com/inbox1/mailcore2/MailCore2Module.kt:44-50 | No security text means TLS. "ssl" in any case means TLS, "starttls" in any case means STARTTLS, and anything else means a clear connection. |
| MailCoreNative.ValidateConfig | android/app/src/main/java/com/inbox1/mailcore2/MailCore2Module.kt:28-37 | The config is rejected with `mailcore_invalid_config` exactly when host, username or password is missing or blank, or the port is missing or not positive. Otherwise the session gets the values untrimmed. |
| MailCoreNative.FormatAddress | android/app/src/main/java/com/inbox1/mailcore2/MailCore2Module.kt:103-116 | No address formats as `""`. With both parts non-blank the result is `name <mailbox>`. With a blank name it is the mailbox, and with a blank mailbox it is the display name. |
| MailCoreNative.FormatAddressBlank | android/app/src/main/java/com/inbox1/mailcore2/MailCore2Module.kt:103-116 | The formatted address is blank exactly when there is no address or both its parts are blank. |
| MailCoreNative.MessageEntry | android/app/src/main/java/com/inbox1/mailcore2/MailCore2Module.kt:75-85 | An entry has exactly the keys id, from, subject and date, all holding strings. The id is the decimal UID, and a missing header, subject or date gives `""`. |
| MailCoreNative.BuildEntries | android/app/src/main/java/com/inbox1/mailcore2/MailCore2Module.kt:73-86 | The loop builds one entry per fetched message, in order, and so exactly the array `Entries` describes. |
| MailCoreNative.FetchUnread | android/app/src/main/java/com/inbox1/mailcore2/MailCore2Module.kt:27-101 | The outcome is, in order:<br>• an invalid config is rejected;<br>• a failed search rejects with `mailcore_search_failed`;<br>• no UIDs resolve to `[]`;<br>• a failed fetch rejects with `mailcore_fetch_failed`;<br>• otherwise the entries of the fetched messages, none when the list is null. |
| MailCoreNative.NoUidsNoFetch | android/app/src/main/java/com/inbox1/mailcore2/MailCore2Module.kt:55-59 | With a null or empty search result the fetch is never issued. |
| MailCoreNative.InvalidConfigNoSearch | android/app/src/main/java/com/inbox1/mailcore2/MailCore2Module.kt:34-37 | An invalid config is rejected before any search or fetch. |
| NativeBridge.SecurityText | src/mail/mailcore.ts:6 | The security choices are spelt in lower case. |
| NativeBridge.SecurityConnection | android/app/src/main/java/com/inbox1/mailcore2/MailCore2Module.kt:44-50 | The choices 'ssl', 'starttls' and 'none' reach the session as TLS, STARTTLS and a clear connection. |
| NativeBridge.SavedAccountReachesNative | android/app/src/main/java/com/inbox1/mailcore2/MailCore2Module.kt:34-37 | A saved account's port always passes. Its config is refused exactly when host, username or password is blank in Kotlin's sense. |
| NativeBridge.BlankPasswordSavedButRefused | src/screens/SettingsScreen.tsx:76 | A password of whitespace passes `canSave`, which does not trim it, and is then refused natively as a missing configuration. |
| NativeBridge.KotlinOnlySpaceHostRefused | src/screens/SettingsScreen.tsx:74 | A host of characters that Kotlin counts as whitespace but `trim()` keeps is saved and then refused natively. |
| NativeBridge.DefaultFormWith | src/screens/SettingsScreen.tsx:73-77 | The default form with a visible host and username and any non-empty password can be saved. |
| NativeBridge.SpacePasswordFormSavable | src/screens/SettingsScreen.tsx:73-77 | A form with a one-space password can be saved. |
| NativeBridge.SeparatorHostFormSavable | src/screens/SettingsScreen.tsx:73-77 | A form whose host is U+001C can be saved. |
| NativeBridge.FormatAddressMatchesFormatFrom | android/app/src/main/java/com/inbox1/mailcore2/MailCore2Module.kt:111-115 | The native `formatAddress` and the JavaScript `formatFrom` agree on a name and address that are each empty or visible on both sides. |
| NativeBridge.NativeIdResolved | src/mail/fetchInboxSummaries.ts:53-54 | The summary id of a native entry is its decimal UID. |
| NativeBridge.NativeFromResolved | src/mail/fetchInboxSummaries.ts:87 | A native entry's sender is the formatted address, or "Unknown sender" when that is empty. |
| NativeBridge.NativeSubjectResolved | src/mail/fetchInboxSummaries.ts:62-71 | A native entry's subject is kept unless it is blank, when it becomes "(no subject)". Its snippet is empty. |
| NativeBridge.NativeDateResolved | src/mail/fetchInboxSummaries.ts:37-40 | A native entry's date text, `""` included, is passed through unchanged. |
| NativeBridge.NativeUnreadAbsent | src/mail/fetchInboxSummaries.ts:76-83 | A native entry has no unread flag. |
| NativeBridge.NativeEntrySummary | android/app/src/main/java/com/inbox1/mailcore2/MailCore2Module.kt:73-86 | Every native entry summarises to the UID, the sender or "Unknown sender", the subject or "(no subject)", no snippet, the date text and no unread flag. |
| NativeBridge.NativeInboxSummaries | src/mail/fetchInboxSummaries.ts:111-113 | An IMAP fetch whose backend answers with the native entries of some messages succeeds with one such summary per message, in order. |

## Left out

- Rendering, navigation, React state and effects, and the async flow are not modelled. The store functions are synchronous state transitions on an immutable store value.
- The IMAP session, search and fetch operations, `MailCore2Package.kt` and the empty `mailcore.ts`, `imap.ts` and `pop3.ts` stubs are I/O. They are function parameters or are left out.
- Clock- and locale-dependent renderings are function parameters. These are `toLocaleDateString`, `String(date)`, `String(x)` for numbers other than integers of magnitude at most 2^53, the UTC `SimpleDateFormat` and `Date.now()`.
- Numbers are exact reals. Floating-point rounding, for example of `x * 1000`, is not modelled.
- Text.ParseInteger: reads only an optional sign and decimal digits around whitespace. JavaScript `Number` also reads fractions, exponents, hexadecimal, binary and octal literals, and `Infinity`.
- Settings.IsPortValid: rejects ports written as `993.0`, `9.93e2` or `0x3e1`, which the source accepts, because of the reading above. For texts made only of whitespace, a sign and decimal digits (leading zeros included), `Settings.PortTextForm` states validity exactly.
- Summarizer.SummarizeEmail: counts Unicode characters where JavaScript counts UTF-16 code units. `slice(0, 140)` can therefore split a surrogate pair in the source but not in the model.
- Text.LowerAscii: lowers ASCII letters only, where Kotlin's `lowercase(Locale.US)` lowers every letter. The connection type is the same either way. No non-ASCII character lower-cases to one of the ASCII letters of "ssl" or "starttls".
- MailCoreNative.ValidateConfig: takes the config as already-typed optional values. The exceptions Kotlin's `getString`/`getInt` throw on a value of the wrong type are not modelled.
- MailCoreNative.FetchUnread: takes the message of a failed search or fetch as a string. A `null` exception message is not modelled.
- InboxNormalizer.FetchError: the message of the `TypeError` thrown for a null record is engine-specific. The model's text for it is a stand-in.
- Values.Stringify: `String(...)` of an object with its own `toString` is not modelled; every plain object gives `[object Object]`.
- Values.Stringify: the model writes out only integers of magnitude at most 2^53, where the double is exact. JavaScript's shortest round-trip text for larger numbers, such as `1e+21`, comes from the platform parameter, and nothing is promised about it.
- NativeBridge: no JavaScript code in the repository calls the native `fetchUnread` (`src/mail/imap.ts` and `src/mail/mailcore.ts` are stubs). The lemmas that pass a saved account to the native side state the intended wiring, not a call the app makes.

=== FILE: accounts.dfy ===
/** The in-memory account store: a map of accounts and a map of their secrets, both keyed
    by account id, which save and remove always change together. */
module Accounts {
  import opened Wrappers
  import opened OrderedMaps

  datatype Protocol = Imap | Pop3

  /** The transport security a user can pick: 'ssl', 'starttls' or 'none'. */
  datatype Security = Ssl | StartTls | NoSecurity

  datatype Account = Account(
    id: string,
    email: string,
    protocol: Protocol,
    host: string,
    port: int,
    username: string,
    security: Security)

  datatype AccountSecret = AccountSecret(password: string)

  datatype AccountStore = AccountStore(
    accounts: OrderedMap<Account>,
    secrets: OrderedMap<AccountSecret>)
  {
    /** Both maps list the same ids in the same order, and each account is filed under
        its own id. */
    predicate Valid() {
      && accounts.Valid()
      && secrets.Valid()
      && accounts.order == secrets.order
      && forall id :: id in accounts.entries ==> accounts.entries[id].id == id
    }
  }

  /** The store at start-up: two empty maps. */
  function EmptyStore(): (st: AccountStore)
    ensures st.Valid()
    ensures forall id :: GetAccount(st, id) == None && GetAccountSecret(st, id) == None
  {
    AccountStore(EmptyMap(), EmptyMap())
  }

  /** `saveAccount`: files the account and its secret under the account's id, replacing
      whatever was stored under that id; every other id is untouched. */
  function SaveAccount(st: AccountStore, a: Account, s: AccountSecret): (st': AccountStore)
    requires st.Valid()
    ensures st'.Valid()
    ensures GetAccount(st', a.id) == Some(a)
    ensures GetAccountSecret(st', a.id) == Some(s)
    ensures forall id :: id != a.id ==>
      GetAccount(st', id) == GetAccount(st, id) && GetAccountSecret(st', id) == GetAccountSecret(st, id)
  {
    AccountStore(st.accounts.Set(a.id, a), st.secrets.Set(a.id, s))
  }

  /** `getAccount`, with `null` as `None`. */
  function GetAccount(st: AccountStore, id: string): (r: Option<Account>)
    ensures st.Valid() ==> (r.Some? <==> id in st.accounts.order)
    ensures st.Valid() && r.Some? ==> r.value.id == id
  {
    st.accounts.Get(id)
  }

  /** `getAccountSecret`, with `null` as `None`. */
  function GetAccountSecret(st: AccountStore, id: string): (r: Option<AccountSecret>)
    ensures st.Valid() ==> (r.Some? <==> GetAccount(st, id).Some?)
  {
    st.secrets.Get(id)
  }

  /** `listAccounts`: every stored account once, in the order their ids were first saved. */
  function ListAccounts(st: AccountStore): (r: seq<Account>)
    requires st.Valid()
    ensures |r| == |st.accounts.entries|
    ensures forall i :: 0 <= i < |r| ==> GetAccount(st, r[i].id) == Some(r[i])
    ensures forall i, j :: 0 <= i < j < |r| ==> r[i].id != r[j].id
    ensures forall id :: GetAccount(st, id).Some? ==> GetAccount(st, id).value in r
  {
    var vs := st.accounts.Values();
    assert forall i :: 0 <= i < |vs| ==> vs[i].id == st.accounts.order[i];
    assert forall id :: id in st.accounts.entries ==> st.accounts.entries[id] in vs by {
      forall id | id in st.accounts.entries ensures st.accounts.entries[id] in vs {
        assert id in st.accounts.order;
        var i :| 0 <= i < |st.accounts.order| && st.accounts.order[i] == id;
        assert vs[i] == st.accounts.entries[id];
      }
    }
    vs
  }

  /** `removeAccount`: forgets the account and its secret; every other id is untouched. */
  function RemoveAccount(st: AccountStore, id: string): (st': AccountStore)
    requires st.Valid()
    ensures st'.Valid()
    ensures GetAccount(st', id) == None && GetAccountSecret(st', id) == None
    ensures forall id' :: id' != id ==>
      GetAccount(st', id') == GetAccount(st, id') && GetAccountSecret(st', id') == GetAccountSecret(st, id')
  {
    AccountStore(st.accounts.Delete(id), st.secrets.Delete(id))
  }

  /** In every valid store an id has an account exactly when it has a secret. */
  lemma KeySetsAgree(st: AccountStore)
    requires st.Valid()
    ensures st.accounts.entries.Keys == st.secrets.entries.Keys
    ensures forall id :: GetAccount(st, id).Some? <==> GetAccountSecret(st, id).Some?
  {
  }

  /** Saving an account whose id is already stored keeps its place in the listing and
      replaces it there. */
  lemma SaveExistingKeepsPlace(st: AccountStore, a: Account, s: AccountSecret)
    requires st.Valid()
    requires GetAccount(st, a.id).Some?
    ensures var before := ListAccounts(st);
      var after := ListAccounts(SaveAccount(st, a, s));
      && |after| == |before|
      && forall i :: 0 <= i < |before| ==>
           after[i] == if before[i].id == a.id then a else before[i]
  {
    var m := st.accounts;
    var before := m.Values();
    var after := m.Set(a.id, a).Values();
    assert ListAccounts(st) == before;
    assert ListAccounts(SaveAccount(st, a, s)) == after;
    SetValues(m, a.id, a);
    forall i | 0 <= i < |before|
      ensures after[i] == if before[i].id == a.id then a else before[i]
    {
      assert m.entries[m.order[i]] == before[i];
    }
  }

  /** Removing the account at position `i` of the listing takes it out and keeps every
      other account in its order. */
  lemma RemoveKeepsOrder(st: AccountStore, id: string, i: nat)
    requires st.Valid()
    requires i < |ListAccounts(st)| && ListAccounts(st)[i].id == id
    ensures var before := ListAccounts(st);
      ListAccounts(RemoveAccount(st, id)) == before[..i] + before[i + 1..]
  {
    var m := st.accounts;
    assert ListAccounts(st) == m.Values();
    assert m.order[i] == id;
    DeleteValues(m, id, i);
  }

  /** Removing an id that is not stored leaves the listing as it was. */
  lemma RemoveUnknownKeepsListing(st: AccountStore, id: string)
    requires st.Valid() && GetAccount(st, id).None?
    ensures ListAccounts(RemoveAccount(st, id)) == ListAccounts(st)
  {
    DeleteMissingValues(st.accounts, id);
  }

  /** Saving an account under a new id appends it to the listing. */
  lemma SaveNewAppends(st: AccountStore, a: Account, s: AccountSecret)
    requires st.Valid()
    requires GetAccount(st, a.id).None?
    ensures ListAccounts(SaveAccount(st, a, s)) == ListAccounts(st) + [a]
  {
    SetValues(st.accounts, a.id, a);
  }
}

=== FILE: bridge.dfy ===
/** Where the JavaScript side and the native module are meant to meet: a config built from
    a saved account and its secret, as the native `fetchUnread` reads it, and what the
    normaliser makes of the entries that come back. No JavaScript code of the app calls the
    native module yet (`createImapClient` in `src/mail/imap.ts` is a stub), so the lemmas
    here describe the intended wiring, not a call the app makes. */
module NativeBridge {
  import opened Wrappers
  import opened Text
  import opened Values
  import opened Email
  import opened Accounts
  import opened InboxNormalizer
  import opened MailCoreNative
  import opened Settings

  /** The security choice as the JavaScript config spells it. */
  function SecurityText(s: Security): (t: string)
    ensures NoAsciiUpper(t)
  {
    match s
    case Ssl => "ssl"
    case StartTls => "starttls"
    case NoSecurity => "none"
  }

  /** The JavaScript config object as the native module reads it: every key is present. */
  function NativeConfigFor(c: MailCoreConfig): NativeConfig {
    NativeConfig(Some(c.host), Some(c.username), Some(c.password), Some(c.port), Some(SecurityText(c.security)))
  }

  /** Each security choice of the form reaches the native session as the connection type it
      names: 'ssl' as TLS, 'starttls' as STARTTLS and 'none' as a clear connection. */
  lemma SecurityConnection(s: Security)
    ensures ConnectionTypeFor(Some(SecurityText(s))) ==
      match s
      case Ssl => Tls
      case StartTls => MailCoreNative.StartTls
      case NoSecurity => Clear
  {
    var t := SecurityText(s);
    if s.NoSecurity? {
      assert !SpellsIgnoringCase(t, "ssl") && !SpellsIgnoringCase(t, "starttls");
    } else {
      assert SpellsIgnoringCase(t, t);
    }
  }

  /** The native check on an account the form saved: its port is always accepted, so the
      config is rejected exactly when host, username or password is blank in Kotlin's sense. */
  lemma SavedAccountReachesNative(a: Account, s: AccountSecret)
    requires Canonical(a)
    ensures ValidateConfig(NativeConfigFor(ConfigFor(a, s))).Ok? <==>
      !IsKotlinBlank(a.host) && !IsKotlinBlank(a.username) && !IsKotlinBlank(s.password)
  {
  }

  /** A password of spaces passes the form, which checks the password untrimmed, and is
      then refused by the native module as a missing configuration. */
  lemma BlankPasswordSavedButRefused(f: FormState, initial: Option<Account>, now: nat)
    requires CanSave(f) && IsKotlinBlank(f.password)
    ensures HandleSave(f, false, initial, now).Saved?
    ensures var out := HandleSave(f, false, initial, now);
      ValidateConfig(NativeConfigFor(ConfigFor(out.account, out.secret)))
        == Err(NativeError(InvalidConfigCode, InvalidConfigMessage))
  {
  }

  /** A host made only of characters Kotlin counts as whitespace and JavaScript does not
      (U+001C..U+001F) survives the form's trim but is refused by the native module. */
  lemma KotlinOnlySpaceHostRefused(f: FormState, initial: Option<Account>, now: nat)
    requires CanSave(f) && IsKotlinBlank(Trim(f.host))
    ensures HandleSave(f, false, initial, now).Saved?
    ensures var out := HandleSave(f, false, initial, now);
      ValidateConfig(NativeConfigFor(ConfigFor(out.account, out.secret))).Err?
  {
  }

  /** The default form with a host and username that are not blank after trimming and a
      non-empty password can be saved. */
  lemma DefaultFormWith(host: string, username: string, password: string)
    requires |Trim(host)| > 0 && |Trim(username)| > 0 && |password| > 0
    ensures CanSave(DefaultFormState.(host := host, username := username, password := password))
  {
    DefaultPortParses();
  }

  /** A form with the default port whose host and username are already trimmed and not
      empty, and whose password is not empty, can be saved. */
  lemma TypedFormSavable(host: string, username: string, password: string)
    requires Trim(host) == host != [] && Trim(username) == username != [] && password != []
    ensures CanSave(FormState("", Imap, host, "993", Ssl, username, password))
  {
    DefaultPortParses();
  }

  /** The first refusal happens: a form with a one-space password can be saved. */
  lemma SpacePasswordFormSavable()
    ensures var f := FormState("", Imap, "h", "993", Ssl, "u", " ");
      CanSave(f) && IsKotlinBlank(f.password)
  {
    assert IsKotlinBlank(" ") by { assert IsKotlinSpace(" "[0]); }
    TrimIdentity("h");
    TrimIdentity("u");
    TypedFormSavable("h", "u", " ");
  }

  /** The second refusal happens: a host made of the information separator U+001C can be
      saved. */
  lemma SeparatorHostFormSavable()
    ensures var f := FormState("", Imap, "\U{1C}", "993", Ssl, "u", "p");
      CanSave(f) && IsKotlinBlank(Trim(f.host))
  {
    TrimIdentity("\U{1C}");
    assert IsKotlinBlank("\U{1C}") by { assert IsKotlinSpace("\U{1C}"[0]); }
    TrimIdentity("u");
    TypedFormSavable("\U{1C}", "u", "p");
  }

  /** A name and an address that are each empty or visible to both languages. */
  predicate PlainPart(s: string) {
    s == [] || (!IsJsBlank(s) && !IsKotlinBlank(s))
  }

  /** The native `formatAddress` and the normaliser's `formatFrom` of the same name and
      address agree, as long as neither part is whitespace that only one side ignores. */
  lemma FormatAddressMatchesFormatFrom(name: string, mailbox: string)
    requires PlainPart(name) && PlainPart(mailbox)
    ensures FormatFrom(Obj(map["name" := Str(name), "email" := Str(mailbox)]))
      == FormatAddress(Some(Address(Some(name), Some(mailbox))))
  {
    var v := Obj(map["name" := Str(name), "email" := Str(mailbox)]);
    assert Field(v, NameKeys[0]) == Str(name);
    assert Field(v, NameKeys[1]) == Undefined;
    assert Field(v, AddressKeys[0]) == Str(mailbox);
    assert Field(v, AddressKeys[1]) == Undefined;
  }

  /** What the normaliser is expected to make of a native entry: the UID as id, the formatted
      sender or "Unknown sender" when that is empty, the subject or "(no subject)" when it is
      blank, no snippet, the formatted date as it is ("" when the header had none), and no
      unread flag. */
  function NativeSummary(m: NativeMessage, isoDate: int -> string): EmailSummary {
    EmailSummary(
      EntryId(m),
      if EntryFrom(m) == "" then UnknownSender else EntryFrom(m),
      if IsJsBlank(EntrySubject(m)) then NoSubject else EntrySubject(m),
      "",
      EntryDate(m, isoDate),
      None)
  }

  /** The entry's id key is read first, so the summary id is the UID in decimal. */
  lemma NativeIdResolved(m: NativeMessage, isoDate: int -> string, index: nat, p: Platform)
    ensures ResolveId(MessageEntry(m, isoDate), index, p) == EntryId(m)
  {
    var e := MessageEntry(m, isoDate);
    assert Field(e, IdKeys[0]) == Str(EntryId(m));
  }

  /** The entry's `from` is always a string, so the sender is that string, or "Unknown sender"
      when the native side formatted nothing. */
  lemma NativeFromResolved(m: NativeMessage, isoDate: int -> string)
    ensures ResolveFrom(MessageEntry(m, isoDate)) ==
      if EntryFrom(m) == "" then UnknownSender else EntryFrom(m)
  {
    var e := MessageEntry(m, isoDate);
    assert Field(e, FromKeys[0]) == Str(EntryFrom(m));
  }

  /** The subject is the entry's subject unless that is blank, when it becomes "(no subject)";
      an entry never has a snippet. */
  lemma NativeSubjectResolved(m: NativeMessage, isoDate: int -> string)
    ensures PickFirstString(MessageEntry(m, isoDate), SubjectKeys).GetOr(NoSubject) ==
      if IsJsBlank(EntrySubject(m)) then NoSubject else EntrySubject(m)
    ensures PickFirstString(MessageEntry(m, isoDate), SnippetKeys) == None
  {
    var e := MessageEntry(m, isoDate);
    assert Field(e, SubjectKeys[0]) == Str(EntrySubject(m));
    assert Field(e, SubjectKeys[1]) == Undefined;
    assert Field(e, SubjectKeys[2]) == Undefined;
    assert forall i :: 0 <= i < |SnippetKeys| ==> Field(e, SnippetKeys[i]) == Undefined;
  }

  /** The entry's date text is passed through unchanged, "" included. */
  lemma NativeDateResolved(m: NativeMessage, isoDate: int -> string, p: Platform)
    ensures FormatReceivedAt(FirstPresent(MessageEntry(m, isoDate), DateKeys), p) == EntryDate(m, isoDate)
  {
    var e := MessageEntry(m, isoDate);
    assert Field(e, DateKeys[0]) == Undefined;
    assert Field(e, DateKeys[1]) == Str(EntryDate(m, isoDate));
  }

  /** An entry carries no unread flag. */
  lemma NativeUnreadAbsent(m: NativeMessage, isoDate: int -> string)
    ensures ResolveUnread(MessageEntry(m, isoDate)) == None
  {
    var e := MessageEntry(m, isoDate);
    assert Field(e, "unread") == Undefined && Field(e, "isUnread") == Undefined && Field(e, "isRead") == Undefined;
  }

  /** Every native entry is summarised as `NativeSummary` says. */
  lemma NativeEntrySummary(m: NativeMessage, isoDate: int -> string, index: nat, p: Platform)
    ensures Summarize(MessageEntry(m, isoDate), index, p) == NativeSummary(m, isoDate)
  {
    NativeIdResolved(m, isoDate, index, p);
    NativeFromResolved(m, isoDate);
    NativeSubjectResolved(m, isoDate);
    NativeDateResolved(m, isoDate, p);
    NativeUnreadAbsent(m, isoDate);
  }

  /** Fetching an IMAP inbox whose backend answers with the native entries of `messages`
      succeeds with one summary per message, in order, each as `NativeSummary` says. */
  lemma NativeInboxSummaries(
    a: Account, s: AccountSecret, messages: seq<NativeMessage>, isoDate: int -> string,
    fetchInbox: MailCoreConfig -> Result<seq<Value>, string>, p: Platform)
    requires a.protocol == Imap && fetchInbox(ConfigFor(a, s)) == Ok(Entries(messages, isoDate))
    ensures var r := FetchInboxSummaries(a, s, fetchInbox, p);
      && r.Ok? && |r.value| == |messages|
      && forall i :: 0 <= i < |messages| ==> r.value[i] == NativeSummary(messages[i], isoDate)
  {
    var raw := Entries(messages, isoDate);
    var r := FetchInboxSummaries(a, s, fetchInbox, p);
    forall i | 0 <= i < |raw|
      ensures !IsNullish(raw[i])
    {
      assert raw[i] == MessageEntry(messages[i], isoDate);
    }
    assert r.Ok?;
    forall i | 0 <= i < |messages|
      ensures r.value[i] == NativeSummary(messages[i], isoDate)
    {
      NativeEntrySummary(messages[i], isoDate, i, p);
    }
  }
}

=== FILE: cache.dfy ===
/** The in-memory cache of fetched messages, keyed by message id. */
module Cache {
  import opened Wrappers
  import opened OrderedMaps
  import opened Email

  datatype CachedEmail = CachedEmail(id: string, summary: EmailSummary, body: string)

  /** Each cached message is filed under its own id. */
  predicate ValidCache(c: OrderedMap<CachedEmail>) {
    c.Valid() && forall id :: id in c.entries ==> c.entries[id].id == id
  }

  /** The cache at start-up. */
  function EmptyCache(): (c: OrderedMap<CachedEmail>)
    ensures ValidCache(c)
    ensures ListCachedEmails(c) == []
  {
    EmptyMap()
  }

  /** `upsertCachedEmail`: stores the message under its id, replacing an earlier one with
      the same id; every other id is untouched. */
  function UpsertCachedEmail(c: OrderedMap<CachedEmail>, e: CachedEmail): (c': OrderedMap<CachedEmail>)
    requires ValidCache(c)
    ensures ValidCache(c')
    ensures GetCachedEmail(c', e.id) == Some(e)
    ensures forall id :: id != e.id ==> GetCachedEmail(c', id) == GetCachedEmail(c, id)
    ensures GetCachedEmail(c, e.id).Some? ==> |ListCachedEmails(c')| == |ListCachedEmails(c)|
    ensures GetCachedEmail(c, e.id).None? ==> |ListCachedEmails(c')| == |ListCachedEmails(c)| + 1
  {
    c.Set(e.id, e)
  }

  /** `getCachedEmail`, with `null` as `None`. */
  function GetCachedEmail(c: OrderedMap<CachedEmail>, id: string): (r: Option<CachedEmail>)
    ensures ValidCache(c) ==> (r.Some? <==> id in c.order)
    ensures ValidCache(c) && r.Some? ==> r.value.id == id
  {
    c.Get(id)
  }

  /** `listCachedEmails`: every cached message once, each under a different id. */
  function ListCachedEmails(c: OrderedMap<CachedEmail>): (r: seq<CachedEmail>)
    requires ValidCache(c)
    ensures |r| == |c.entries|
    ensures forall i :: 0 <= i < |r| ==> GetCachedEmail(c, r[i].id) == Some(r[i])
    ensures forall i, j :: 0 <= i < j < |r| ==> r[i].id != r[j].id
    ensures forall id :: GetCachedEmail(c, id).Some? ==> GetCachedEmail(c, id).value in r
  {
    var vs := c.Values();
    assert forall i :: 0 <= i < |vs| ==> vs[i].id == c.order[i];
    assert forall id :: id in c.entries ==> c.entries[id] in vs by {
      forall id | id in c.entries ensures c.entries[id] in vs {
        assert id in c.order;
        var i :| 0 <= i < |c.order| && c.order[i] == id;
        assert vs[i] == c.entries[id];
      }
    }
    vs
  }

  /** `clearCache`: afterwards nothing is listed and every lookup misses. */
  function ClearCache(c: OrderedMap<CachedEmail>): (c': OrderedMap<CachedEmail>)
    ensures ValidCache(c')
    ensures ListCachedEmails(c') == []
    ensures forall id :: GetCachedEmail(c', id) == None
  {
    EmptyMap()
  }
}

=== FILE: email.dfy ===
/** The canonical summary record every raw message is normalised into. */
module Email {
  import opened Wrappers

  /** `EmailSummary`: `unread` is absent (`None`) when the raw record says nothing usable. */
  datatype EmailSummary = EmailSummary(
    id: string,
    from: string,
    subject: string,
    snippet: string,
    receivedAt: string,
    unread: Option<bool>)
}

=== FILE: mailcore_native.dfy ===
/** The Android native module `MailCore2Module.kt` behind `fetchUnread`: it reads the
    connection settings from the JavaScript config map, rejects incomplete ones, maps the
    security text to a connection type, searches the inbox for unread messages and turns
    each fetched header into a flat entry for the JavaScript side. The IMAP session and its
    operations are parameters; only what the module decides is modelled. */
module MailCoreNative {
  import opened Wrappers
  import opened Text
  import opened Values

  /** The config map as the module reads it: each key may be absent. */
  datatype NativeConfig = NativeConfig(
    host: Option<string>,
    username: Option<string>,
    password: Option<string>,
    port: Option<int>,
    security: Option<string>)

  /** The MailCore connection types the module chooses between. */
  datatype ConnectionType = Tls | StartTls | Clear

  /** What the module configures the IMAP session with. */
  datatype SessionSettings = SessionSettings(
    host: string,
    port: int,
    username: string,
    password: string,
    connection: ConnectionType)

  /** A rejected promise: an error code and a message. */
  datatype NativeError = NativeError(code: string, message: string)

  const InvalidConfigCode := "mailcore_invalid_config"
  const InvalidConfigMessage := "Missing required IMAP configuration."
  const SearchFailedCode := "mailcore_search_failed"
  const FetchFailedCode := "mailcore_fetch_failed"

  /** The port the module uses when the config has none. */
  const AbsentPort := -1

  /** `t` spells `lower` with some of its letters in upper case. */
  predicate SpellsIgnoringCase(t: string, lower: string) {
    |t| == |lower|
    && forall i :: 0 <= i < |t| ==>
      t[i] == lower[i] || ('a' <= lower[i] <= 'z' && t[i] as int == lower[i] as int - 32)
  }

  /** A string with no upper-case ASCII letter. */
  predicate NoAsciiUpper(s: string) {
    forall i :: 0 <= i < |s| ==> !('A' <= s[i] <= 'Z')
  }

  /** Lower-casing `t` gives a string without upper-case letters exactly when `t` spells it
      ignoring case. */
  lemma LowerAsciiSpells(t: string, lower: string)
    requires NoAsciiUpper(lower)
    ensures LowerAscii(t) == lower <==> SpellsIgnoringCase(t, lower)
  {
    var l := LowerAscii(t);
    if SpellsIgnoringCase(t, lower) {
      assert forall i :: 0 <= i < |t| ==> l[i] == lower[i];
    }
  }

  /** The connection type for the config's `security` text, "ssl" when absent, compared
      after ASCII lower-casing: "ssl" is TLS, "starttls" is STARTTLS, anything else is a
      clear connection. */
  function ConnectionTypeFor(security: Option<string>): (c: ConnectionType)
    ensures security.None? ==> c == Tls
    ensures security.Some? ==>
      && (c == Tls <==> SpellsIgnoringCase(security.value, "ssl"))
      && (c == StartTls <==> SpellsIgnoringCase(security.value, "starttls"))
  {
    var text := LowerAscii(security.GetOr("ssl"));
    LowerAsciiSpells(security.GetOr("ssl"), "ssl");
    LowerAsciiSpells(security.GetOr("ssl"), "starttls");
    if text == "ssl" then Tls
    else if text == "starttls" then StartTls
    else Clear
  }

  /** The start of `fetchUnread`: a missing string reads as "", a missing port as -1; the
      config is rejected with `mailcore_invalid_config` when host, username or password is
      missing or blank, or the port is missing or not positive. Otherwise the session gets
      the values as given, untrimmed. */
  function ValidateConfig(c: NativeConfig): (r: Result<SessionSettings, NativeError>)
    ensures r.Err? <==>
      || c.host.None? || IsKotlinBlank(c.host.value)
      || c.username.None? || IsKotlinBlank(c.username.value)
      || c.password.None? || IsKotlinBlank(c.password.value)
      || c.port.None? || c.port.value <= 0
    ensures r.Err? ==> r.error == NativeError(InvalidConfigCode, InvalidConfigMessage)
    ensures r.Ok? ==>
      && r.value.host == c.host.value && r.value.username == c.username.value
      && r.value.password == c.password.value && r.value.port == c.port.value && c.port.value > 0
      && r.value.connection == ConnectionTypeFor(c.security)
  {
    var host := c.host.GetOr("");
    var username := c.username.GetOr("");
    var password := c.password.GetOr("");
    var port := c.port.GetOr(AbsentPort);
    if IsKotlinBlank(host) || IsKotlinBlank(username) || IsKotlinBlank(password) || port <= 0 then
      Err(NativeError(InvalidConfigCode, InvalidConfigMessage))
    else
      Ok(SessionSettings(host, port, username, password, ConnectionTypeFor(c.security)))
  }

  /** A MailCore address: display name and mailbox, each possibly null. */
  datatype Address = Address(displayName: Option<string>, mailbox: Option<string>)

  /** `formatAddress`: "" for no address; `name <mailbox>` when both parts are not blank;
      else the mailbox when it is not blank; else the display name, blank or not. */
  function FormatAddress(a: Option<Address>): (r: string)
    ensures a.None? ==> r == ""
    ensures a.Some? ==>
      var name := a.value.displayName.GetOr("");
      var mailbox := a.value.mailbox.GetOr("");
      && (!IsKotlinBlank(name) && !IsKotlinBlank(mailbox) ==>
            && |r| == |name| + |mailbox| + 3 && r[..|name|] == name
            && r[|name|..|name| + 2] == " <" && r[|name| + 2..|r| - 1] == mailbox && r[|r| - 1] == '>')
      && (IsKotlinBlank(name) && !IsKotlinBlank(mailbox) ==> r == mailbox)
      && (IsKotlinBlank(mailbox) ==> r == name)
  {
    if a.None? then ""
    else
      var name := a.value.displayName.GetOr("");
      var mailbox := a.value.mailbox.GetOr("");
      if !IsKotlinBlank(name) && !IsKotlinBlank(mailbox) then name + " <" + mailbox + ">"
      else if !IsKotlinBlank(mailbox) then mailbox
      else name
  }

  /** The formatted address is blank exactly when there is no address or neither of its
      parts has a visible character. */
  lemma {:induction false} FormatAddressBlank(a: Option<Address>)
    ensures IsKotlinBlank(FormatAddress(a)) <==>
      a.None? || (IsKotlinBlank(a.value.displayName.GetOr("")) && IsKotlinBlank(a.value.mailbox.GetOr("")))
  {
    if a.Some? {
      var name := a.value.displayName.GetOr("");
      var mailbox := a.value.mailbox.GetOr("");
      var r := FormatAddress(a);
      if !IsKotlinBlank(name) && !IsKotlinBlank(mailbox) {
        assert r[|name| + 1] == '<';
        assert !IsKotlinSpace(r[|name| + 1]);
      }
    }
  }

  /** A message header as MailCore reports it; `date` is the time in milliseconds since
      the epoch. Each part may be null. */
  datatype Header = Header(from: Option<Address>, subject: Option<string>, date: Option<int>)

  /** A fetched message: its UID and its header, which may be null. */
  datatype NativeMessage = NativeMessage(uid: nat, header: Option<Header>)

  /** The four texts of an entry. `isoDate` stands for the UTC `yyyy-MM-dd'T'HH:mm:ss'Z'`
      formatter. */
  function EntryId(m: NativeMessage): string { NatToDecimal(m.uid) }

  function EntryFrom(m: NativeMessage): string {
    FormatAddress(if m.header.Some? then m.header.value.from else None)
  }

  function EntrySubject(m: NativeMessage): string {
    if m.header.Some? && m.header.value.subject.Some? then m.header.value.subject.value else ""
  }

  function EntryDate(m: NativeMessage, isoDate: int -> string): string {
    if m.header.Some? && m.header.value.date.Some? then isoDate(m.header.value.date.value) else ""
  }

  /** The entry pushed for one message: a map of exactly the four keys, each holding a
      string: the UID in decimal, the formatted sender, the subject ("" when missing) and
      the formatted date ("" when missing). */
  function MessageEntry(m: NativeMessage, isoDate: int -> string): (e: Value)
    ensures e.Obj? && e.fields.Keys == {"id", "from", "subject", "date"}
    ensures forall k :: k in e.fields ==> e.fields[k].Str?
    ensures Field(e, "id") == Str(EntryId(m)) && AllDigits(Field(e, "id").s)
    ensures Field(e, "from") == Str(EntryFrom(m))
    ensures m.header.None? ==> Field(e, "from") == Str("")
    ensures Field(e, "subject") == Str(EntrySubject(m))
    ensures (m.header.None? || m.header.value.subject.None?) ==> Field(e, "subject") == Str("")
    ensures Field(e, "date") == Str(EntryDate(m, isoDate))
    ensures (m.header.None? || m.header.value.date.None?) ==> Field(e, "date") == Str("")
  {
    Obj(map[
      "id" := Str(EntryId(m)),
      "from" := Str(EntryFrom(m)),
      "subject" := Str(EntrySubject(m)),
      "date" := Str(EntryDate(m, isoDate))])
  }

  /** The loop over the fetched messages: one entry per message, in order. It builds
      exactly the array that `Entries` describes. */
  method BuildEntries(messages: seq<NativeMessage>, isoDate: int -> string) returns (results: seq<Value>)
    ensures |results| == |messages|
    ensures forall i :: 0 <= i < |messages| ==> results[i] == MessageEntry(messages[i], isoDate)
    ensures results == Entries(messages, isoDate)
  {
    results := [];
    for n := 0 to |messages|
      invariant |results| == n
      invariant forall i :: 0 <= i < n ==> results[i] == MessageEntry(messages[i], isoDate)
    {
      results := results + [MessageEntry(messages[n], isoDate)];
    }
  }

  /** The entries as a function, for stating what the module resolves with. */
  function Entries(messages: seq<NativeMessage>, isoDate: int -> string): (es: seq<Value>)
    ensures |es| == |messages|
    ensures forall i :: 0 <= i < |messages| ==> es[i] == MessageEntry(messages[i], isoDate)
  {
    seq(|messages|, i requires 0 <= i < |messages| => MessageEntry(messages[i], isoDate))
  }

  /** `fetchUnread`. `search` stands for the unread search on the configured session (its
      error text, or the UIDs it found, possibly null); `fetch` for fetching the headers of
      the given UIDs (its error text, or the messages, possibly null). A failed search or
      fetch rejects with its own code; no UIDs resolve to an empty array. */
  function FetchUnread(
    c: NativeConfig,
    search: SessionSettings -> Result<Option<seq<nat>>, string>,
    fetch: (SessionSettings, seq<nat>) -> Result<Option<seq<NativeMessage>>, string>,
    isoDate: int -> string): (r: Result<seq<Value>, NativeError>)
    ensures ValidateConfig(c).Err? ==> r == Err(ValidateConfig(c).error)
    ensures ValidateConfig(c).Ok? ==>
      var session := ValidateConfig(c).value;
      && (search(session).Err? ==> r == Err(NativeError(SearchFailedCode, search(session).error)))
      && (search(session).Ok? && (search(session).value.None? || search(session).value.value == []) ==>
            r == Ok([]))
      && (search(session).Ok? && search(session).value.Some? && search(session).value.value != [] ==>
            var uids := search(session).value.value;
            && (fetch(session, uids).Err? ==> r == Err(NativeError(FetchFailedCode, fetch(session, uids).error)))
            && (fetch(session, uids).Ok? ==> r == Ok(Entries(fetch(session, uids).value.GetOr([]), isoDate))))
  {
    match ValidateConfig(c)
    case Err(e) => Err(e)
    case Ok(session) =>
      match search(session)
      case Err(message) => Err(NativeError(SearchFailedCode, message))
      case Ok(found) =>
        if found.None? || found.value == [] then Ok([])
        else
          match fetch(session, found.value)
          case Err(message) => Err(NativeError(FetchFailedCode, message))
          case Ok(messages) => Ok(Entries(messages.GetOr([]), isoDate))
  }

  /** With no unread UIDs the fetch is never issued: the result is the same whatever the
      fetch would have done. */
  lemma NoUidsNoFetch(
    c: NativeConfig,
    search: SessionSettings -> Result<Option<seq<nat>>, string>,
    fetch1: (SessionSettings, seq<nat>) -> Result<Option<seq<NativeMessage>>, string>,
    fetch2: (SessionSettings, seq<nat>) -> Result<Option<seq<NativeMessage>>, string>,
    isoDate: int -> string)
    requires ValidateConfig(c).Ok?
    requires var found := search(ValidateConfig(c).value); found.Ok? && (found.value.None? || found.value.value == [])
    ensures FetchUnread(c, search, fetch1, isoDate) == FetchUnread(c, search, fetch2, isoDate) == Ok([])
  {
  }

  /** An invalid config is rejected before the session is used at all. */
  lemma InvalidConfigNoSearch(
    c: NativeConfig,
    search1: SessionSettings -> Result<Option<seq<nat>>, string>,
    search2: SessionSettings -> Result<Option<seq<nat>>, string>,
    fetch1: (SessionSettings, seq<nat>) -> Result<Option<seq<NativeMessage>>, string>,
    fetch2: (SessionSettings, seq<nat>) -> Result<Option<seq<NativeMessage>>, string>,
    isoDate: int -> string)
    requires ValidateConfig(c).Err?
    ensures FetchUnread(c, search1, fetch1, isoDate) == FetchUnread(c, search2, fetch2, isoDate)
    ensures FetchUnread(c, search1, fetch1, isoDate).Err?
    ensures FetchUnread(c, search1, fetch1, isoDate).error.code == InvalidConfigCode
  {
  }
}

=== FILE: normalize.dfy ===
/** The response normaliser of `fetchInboxSummaries.ts`: every raw record the mail backend
    returns becomes one `EmailSummary`, each field resolved from an ordered list of candidate
    keys with a default when none of them holds something usable. */
module InboxNormalizer {
  import opened Wrappers
  import opened Text
  import opened Values
  import opened Email
  import opened Accounts

  const IdKeys: seq<string> := ["id", "uid", "messageId", "message_id", "messageID", "msgid"]
  const FromKeys: seq<string> := ["from", "sender", "fromAddress"]
  const SubjectKeys: seq<string> := ["subject", "title", "snippetSubject"]
  const SnippetKeys: seq<string> := ["snippet", "preview", "bodyPreview", "summary"]
  const DateKeys: seq<string> := ["receivedAt", "date", "internalDate"]
  const NameKeys: seq<string> := ["name", "displayName"]
  const AddressKeys: seq<string> := ["email", "address"]

  const NoSubject := "(no subject)"
  const UnknownSender := "Unknown sender"
  const UnknownDate := "Unknown"
  const UnsupportedProtocolMessage := "POP3 sync is not supported yet. Use IMAP for now."

  /** A string with at least one non-whitespace character. */
  predicate HasText(v: Value) {
    v.Str? && !IsJsBlank(v.s)
  }

  /** `pickFirstString`: the value, untrimmed, of the first key in list order whose value
      is a string with non-whitespace content; `None` for `undefined`. */
  function PickFirstString(v: Value, keys: seq<string>): (r: Option<string>)
    ensures r.Some? <==> exists i :: 0 <= i < |keys| && HasText(Field(v, keys[i]))
    ensures r.Some? ==>
      exists i :: 0 <= i < |keys| && Field(v, keys[i]) == Str(r.value) && !IsJsBlank(r.value)
        && forall j :: 0 <= j < i ==> !HasText(Field(v, keys[j]))
  {
    PickFrom(v, keys, 0)
  }

  /** `PickFirstString` over the keys from position `k` on. */
  function PickFrom(v: Value, keys: seq<string>, k: nat): (r: Option<string>)
    requires k <= |keys|
    ensures r.Some? <==> exists i :: k <= i < |keys| && HasText(Field(v, keys[i]))
    ensures r.Some? ==>
      exists i :: k <= i < |keys| && Field(v, keys[i]) == Str(r.value) && !IsJsBlank(r.value)
        && forall j :: k <= j < i ==> !HasText(Field(v, keys[j]))
    decreases |keys| - k
  {
    if k == |keys| then None
    else if HasText(Field(v, keys[k])) then Some(Field(v, keys[k]).s)
    else PickFrom(v, keys, k + 1)
  }

  /** What `formatFrom` actually looks at: the first element of the first element ... of
      nested non-empty arrays. */
  function FirstLeaf(v: Value): (l: Value)
    ensures !(l.Arr? && |l.elems| > 0)
    ensures !(v.Arr? && |v.elems| > 0) ==> l == v
  {
    if v.Arr? && |v.elems| > 0 then FirstLeaf(v.elems[0]) else v
  }

  /** `name <email>` when both parts are present, else whichever is present, else "". */
  function NameAddr(name: Option<string>, email: Option<string>): string
  {
    if name.Some? && email.Some? then name.value + " <" + email.value + ">"
    else name.GetOr(email.GetOr(""))
  }

  /** `formatFrom`: a string verbatim; a non-empty array by its first element; an object
      (an empty array or a date included) by its name and address fields; anything else "". */
  function FormatFrom(v: Value): (r: string)
    ensures FirstLeaf(v).Str? ==> r == FirstLeaf(v).s
    ensures FirstLeaf(v).Obj? ==>
      r == NameAddr(PickFirstString(FirstLeaf(v), NameKeys), PickFirstString(FirstLeaf(v), AddressKeys))
    ensures !FirstLeaf(v).Str? && !FirstLeaf(v).Obj? ==> r == ""
  {
    match v
    case Str(s) => s
    case Arr(es) =>
      if |es| > 0 then FormatFrom(es[0]) else ""
    case Obj(_) => NameAddr(PickFirstString(v, NameKeys), PickFirstString(v, AddressKeys))
    case _ => ""
  }

  /** `formatReceivedAt`: strings pass through, finite numbers below 1e12 are seconds and
      the rest milliseconds, dates render directly, everything else is "Unknown". */
  function FormatReceivedAt(v: Value, p: Platform): (r: string)
    ensures v.Str? ==> r == v.s
    ensures v.Num? ==> r == p.localeDate(if v.x < 1e12 then v.x * 1000.0 else v.x)
    ensures v.Date? ==> r == p.localeDate(v.ms)
    ensures !(v.Str? || v.Num? || v.Date?) ==> r == UnknownDate
  {
    match v
    case Str(s) => s
    case Num(x) => p.localeDate(if x < 1e12 then x * 1000.0 else x)
    case Date(ms) => p.localeDate(ms)
    case _ => UnknownDate
  }

  /** The id: `String(...)` of the first id key that is not null or undefined (an empty
      string counts), else `message-<index>`. */
  function ResolveId(v: Value, index: nat, p: Platform): (r: string)
    ensures (forall k :: 0 <= k < |IdKeys| ==> IsNullish(Field(v, IdKeys[k]))) ==>
      r == "message-" + NatToDecimal(index)
    ensures (exists k :: 0 <= k < |IdKeys| && !IsNullish(Field(v, IdKeys[k]))) ==>
      exists k :: 0 <= k < |IdKeys| && !IsNullish(Field(v, IdKeys[k])) && r == Stringify(Field(v, IdKeys[k]), p)
  {
    var idValue := FirstPresent(v, IdKeys);
    if IsNullish(idValue) then "message-" + NatToDecimal(index) else Stringify(idValue, p)
  }

  /** The sender: `formatFrom` of the first of from/sender/fromAddress that is not null or
      undefined, or "Unknown sender" when that formats to "". */
  function ResolveFrom(v: Value): (r: string)
    ensures r != ""
    ensures FormatFrom(FirstPresent(v, FromKeys)) != "" ==> r == FormatFrom(FirstPresent(v, FromKeys))
    ensures FormatFrom(FirstPresent(v, FromKeys)) == "" ==> r == UnknownSender
  {
    var f := FormatFrom(FirstPresent(v, FromKeys));
    if f == "" then UnknownSender else f
  }

  /** The unread flag: a boolean `unread`, else a boolean `isUnread`, else the negation of a
      boolean `isRead`; absent otherwise. */
  function ResolveUnread(v: Value): (r: Option<bool>)
    ensures r.None? <==>
      !Field(v, "unread").Bool? && !Field(v, "isUnread").Bool? && !Field(v, "isRead").Bool?
    ensures Field(v, "unread").Bool? ==> r == Some(Field(v, "unread").b)
    ensures !Field(v, "unread").Bool? && Field(v, "isUnread").Bool? ==> r == Some(Field(v, "isUnread").b)
    ensures !Field(v, "unread").Bool? && !Field(v, "isUnread").Bool? && Field(v, "isRead").Bool? ==>
      r == Some(!Field(v, "isRead").b)
  {
    var unread := Field(v, "unread");
    var isUnread := Field(v, "isUnread");
    var isRead := Field(v, "isRead");
    if unread.Bool? then Some(unread.b)
    else if isUnread.Bool? then Some(isUnread.b)
    else if isRead.Bool? then Some(!isRead.b)
    else None
  }

  /** The summary of a record that is not null or undefined (`toEmailSummary` past its
      first property read). */
  function Summarize(v: Value, index: nat, p: Platform): (r: EmailSummary)
    ensures r.from != ""
    ensures r.subject == NoSubject
      || exists k :: 0 <= k < |SubjectKeys| && Field(v, SubjectKeys[k]) == Str(r.subject) && !IsJsBlank(r.subject)
    ensures r.snippet == ""
      || exists k :: 0 <= k < |SnippetKeys| && Field(v, SnippetKeys[k]) == Str(r.snippet) && !IsJsBlank(r.snippet)
    ensures r.unread.Some? ==>
      Field(v, "unread").Bool? || Field(v, "isUnread").Bool? || Field(v, "isRead").Bool?
  {
    EmailSummary(
      ResolveId(v, index, p),
      ResolveFrom(v),
      PickFirstString(v, SubjectKeys).GetOr(NoSubject),
      PickFirstString(v, SnippetKeys).GetOr(""),
      FormatReceivedAt(FirstPresent(v, DateKeys), p),
      ResolveUnread(v))
  }

  /** Why fetching the inbox failed. */
  datatype FetchError =
    | UnsupportedProtocol
    | BackendFailed(reason: string)
    | NullRecord(index: nat)
  {
    /** The message of the thrown `Error`. */
    function Message(): string {
      match this
      case UnsupportedProtocol => UnsupportedProtocolMessage
      case BackendFailed(reason) => reason
      case NullRecord(_) => "Cannot read properties of null or undefined"
    }
  }

  /** `toEmailSummary`: reading `record.id` of `null` or `undefined` throws a TypeError;
      every other value is summarised. */
  function ToEmailSummary(v: Value, index: nat, p: Platform): (r: Result<EmailSummary, FetchError>)
    ensures r.Err? <==> IsNullish(v)
    ensures r.Err? ==> r.error == NullRecord(index)
    ensures r.Ok? ==> r.value == Summarize(v, index, p)
  {
    if IsNullish(v) then Err(NullRecord(index)) else Ok(Summarize(v, index, p))
  }

  /** `raw.map(convert)` from position `k` on, each record converted with its position as
      index; a conversion that throws ends the map with its error. */
  function MapRecords(raw: seq<Value>, k: nat, convert: (Value, nat) -> Result<EmailSummary, FetchError>)
    : (r: Result<seq<EmailSummary>, FetchError>)
    requires k <= |raw|
    ensures r.Ok? <==> forall i :: k <= i < |raw| ==> convert(raw[i], i).Ok?
    ensures r.Ok? ==> |r.value| == |raw| - k
    ensures r.Ok? ==> forall i :: 0 <= i < |r.value| ==> convert(raw[k + i], k + i) == Ok(r.value[i])
    ensures r.Err? ==>
      exists i :: k <= i < |raw| && convert(raw[i], i) == Err(r.error)
        && forall j :: k <= j < i ==> convert(raw[j], j).Ok?
    decreases |raw| - k
  {
    if k == |raw| then Ok([])
    else
      match convert(raw[k], k)
      case Err(e) => Err(e)
      case Ok(head) =>
        var tail := MapRecords(raw, k + 1, convert);
        if tail.Err? then tail
        else
          var r := [head] + tail.value;
          assert forall i :: 1 <= i < |r| ==> r[i] == tail.value[i - 1];
          Ok(r)
  }

  /** The connection parameters handed to the mail backend. */
  datatype MailCoreConfig = MailCoreConfig(
    host: string,
    port: int,
    username: string,
    password: string,
    security: Security)

  function ConfigFor(a: Account, s: AccountSecret): MailCoreConfig {
    MailCoreConfig(a.host, a.port, a.username, s.password, a.security)
  }

  /** `fetchInboxSummaries`: any protocol but IMAP is refused before the backend is asked;
      otherwise the backend's records are summarised one by one, in order, each with its
      position as index. `fetchInbox` stands for the backend call, which may fail. */
  function FetchInboxSummaries(
    a: Account, s: AccountSecret,
    fetchInbox: MailCoreConfig -> Result<seq<Value>, string>,
    p: Platform): (r: Result<seq<EmailSummary>, FetchError>)
    ensures a.protocol != Imap ==> r == Err(UnsupportedProtocol)
    ensures a.protocol == Imap && fetchInbox(ConfigFor(a, s)).Err? ==>
      r == Err(BackendFailed(fetchInbox(ConfigFor(a, s)).error))
    ensures a.protocol == Imap && fetchInbox(ConfigFor(a, s)).Ok? ==>
      var raw := fetchInbox(ConfigFor(a, s)).value;
      && (r.Ok? <==> forall i :: 0 <= i < |raw| ==> !IsNullish(raw[i]))
      && (r.Ok? ==> |r.value| == |raw|)
      && (r.Ok? ==> forall i :: 0 <= i < |raw| ==> r.value[i] == Summarize(raw[i], i, p))
      && (r.Err? ==>
            && r.error.NullRecord? && r.error.index < |raw| && IsNullish(raw[r.error.index])
            && forall j :: 0 <= j < r.error.index ==> !IsNullish(raw[j]))
  {
    if a.protocol != Imap then Err(UnsupportedProtocol)
    else
      match fetchInbox(ConfigFor(a, s))
      case Err(reason) => Err(BackendFailed(reason))
      case Ok(raw) =>
        var convert := (v: Value, i: nat) => ToEmailSummary(v, i, p);
        SummariesOf(raw, convert, p);
        FirstNullRecord(raw, convert);
        MapRecords(raw, 0, convert)
  }

  /** A conversion that fails exactly on null or undefined and otherwise summarises turns
      the records into every summary in order, or fails. */
  lemma SummariesOf(
    raw: seq<Value>, convert: (Value, nat) -> Result<EmailSummary, FetchError>, p: Platform)
    requires forall v, i :: convert(v, i).Err? <==> IsNullish(v)
    requires forall v, i :: convert(v, i).Ok? ==> convert(v, i).value == Summarize(v, i, p)
    ensures var r := MapRecords(raw, 0, convert);
      && (r.Ok? <==> forall i :: 0 <= i < |raw| ==> !IsNullish(raw[i]))
      && (r.Ok? ==> |r.value| == |raw|)
      && (r.Ok? ==> forall i :: 0 <= i < |raw| ==> r.value[i] == Summarize(raw[i], i, p))
  {
    var r := MapRecords(raw, 0, convert);
    if r.Ok? {
      forall i | 0 <= i < |raw|
        ensures r.value[i] == Summarize(raw[i], i, p)
      {
        assert convert(raw[0 + i], 0 + i) == Ok(r.value[i]);
      }
    }
  }

  /** A conversion that fails exactly on null or undefined, naming the position, makes the
      records fail at the first such record. */
  lemma FirstNullRecord(raw: seq<Value>, convert: (Value, nat) -> Result<EmailSummary, FetchError>)
    requires forall v, i :: convert(v, i).Err? <==> IsNullish(v)
    requires forall v, i :: convert(v, i).Err? ==> convert(v, i).error == NullRecord(i)
    ensures var r := MapRecords(raw, 0, convert);
      r.Err? ==>
        && r.error.NullRecord? && r.error.index < |raw| && IsNullish(raw[r.error.index])
        && forall j :: 0 <= j < r.error.index ==> !IsNullish(raw[j])
  {
    var r := MapRecords(raw, 0, convert);
    if r.Err? {
      var i :| 0 <= i < |raw| && convert(raw[i], i) == Err(r.error)
        && forall j :: 0 <= j < i ==> convert(raw[j], j).Ok?;
      assert r.error == NullRecord(i);
    }
  }
}

=== FILE: normalize_facts.dfy ===
/** Properties of the response normaliser that relate several of its parts or several
    calls: how each summary field is resolved, the defaults a record without usable fields
    gets, and what every summary satisfies. */
module NormalizerFacts {
  import opened Wrappers
  import opened Text
  import opened Values
  import opened Email
  import opened Accounts
  import opened InboxNormalizer

  /** `pickFirstString` answers with the first key holding visible text, whichever that is. */
  lemma PickFirstStringIsFirst(v: Value, keys: seq<string>, k: nat)
    requires k < |keys| && HasText(Field(v, keys[k]))
    requires forall j :: 0 <= j < k ==> !HasText(Field(v, keys[j]))
    ensures PickFirstString(v, keys) == Some(Field(v, keys[k]).s)
  {
    var r := PickFirstString(v, keys);
    var i :| 0 <= i < |keys| && Field(v, keys[i]) == Str(r.value) && !IsJsBlank(r.value)
      && forall j :: 0 <= j < i ==> !HasText(Field(v, keys[j]));
  }

  /** A sender object with a name and an address formats as `name <address>`. */
  lemma FormatFromNameAndAddress()
    ensures FormatFrom(Obj(map["name" := Str("A"), "email" := Str("a@x.com")])) == "A <a@x.com>"
  {
    var v := Obj(map["name" := Str("A"), "email" := Str("a@x.com")]);
    assert !IsJsBlank("A") by { assert !IsJsSpace("A"[0]); }
    assert !IsJsBlank("a@x.com") by { assert !IsJsSpace("a@x.com"[0]); }
    assert HasText(Field(v, NameKeys[0]));
    assert HasText(Field(v, AddressKeys[0]));
    PickFirstStringIsFirst(v, NameKeys, 0);
    PickFirstStringIsFirst(v, AddressKeys, 0);
  }

  /** A list of senders is shown as its first element, whatever follows it. */
  lemma FormatFromFirstElement(x: Value, rest: seq<Value>)
    ensures FormatFrom(Arr([x] + rest)) == FormatFrom(x)
  {
    assert ([x] + rest)[0] == x;
  }

  /** The example of a list of senders: only the first one counts. */
  lemma FormatFromFirstOfList()
    ensures FormatFrom(Arr([
      Obj(map["name" := Str("A"), "email" := Str("a@x.com")]),
      Obj(map["name" := Str("B")])])) == "A <a@x.com>"
  {
    var first := Obj(map["name" := Str("A"), "email" := Str("a@x.com")]);
    var list := Arr([first, Obj(map["name" := Str("B")])]);
    assert FirstLeaf(list) == FirstLeaf(first) == first;
    FormatFromNameAndAddress();
  }

  /** A number below 1e12 is read as seconds and renders like the date at that many
      seconds; a larger one is read as milliseconds and renders like the date at that many
      milliseconds. A non-finite number is "Unknown". */
  lemma ReceivedAtSecondsOrMilliseconds(x: real, k: NonFiniteKind, p: Platform)
    ensures x < 1e12 ==> FormatReceivedAt(Num(x), p) == FormatReceivedAt(Date(x * 1000.0), p)
    ensures x >= 1e12 ==> FormatReceivedAt(Num(x), p) == FormatReceivedAt(Date(x), p)
    ensures FormatReceivedAt(NonFinite(k), p) == UnknownDate
  {
  }

  /** The id is the text of the first id key that is not null or undefined, whatever its
      value: an empty string or a number counts. */
  lemma IdFromFirstPresentKey(v: Value, k: nat, index: nat, p: Platform)
    requires k < |IdKeys| && !IsNullish(Field(v, IdKeys[k]))
    requires forall j :: 0 <= j < k ==> IsNullish(Field(v, IdKeys[j]))
    ensures ResolveId(v, index, p) == Stringify(Field(v, IdKeys[k]), p)
  {
    var r := FirstPresent(v, IdKeys);
    var i :| 0 <= i < |IdKeys| && r == Field(v, IdKeys[i])
      && forall j :: 0 <= j < i ==> IsNullish(Field(v, IdKeys[j]));
  }

  /** An empty-string id is kept as the empty id: it is not null or undefined. */
  lemma EmptyIdIsKept(v: Value, index: nat, p: Platform)
    requires Field(v, "id") == Str("")
    ensures ResolveId(v, index, p) == ""
  {
    IdFromFirstPresentKey(v, 0, index, p);
  }

  /** Without any id key the id is `message-<index>`, so two such records at different
      positions get different ids. */
  lemma FallbackIdsDistinct(v: Value, w: Value, i: nat, j: nat, p: Platform)
    requires forall k :: 0 <= k < |IdKeys| ==> IsNullish(Field(v, IdKeys[k]))
    requires forall k :: 0 <= k < |IdKeys| ==> IsNullish(Field(w, IdKeys[k]))
    requires i != j
    ensures ResolveId(v, i, p) == "message-" + NatToDecimal(i)
    ensures ResolveId(v, i, p) != ResolveId(w, j, p)
  {
    var prefix := "message-";
    var a := prefix + NatToDecimal(i);
    var b := prefix + NatToDecimal(j);
    if a == b {
      assert a[|prefix|..] == NatToDecimal(i);
      assert b[|prefix|..] == NatToDecimal(j);
      NatToDecimalInjective(i, j);
    }
  }

  /** A present but empty `from` shadows `sender` and `fromAddress`: the sender becomes
      "Unknown sender" whatever they hold. */
  lemma EmptyFromShadowsSender(v: Value)
    requires Field(v, "from") == Str("")
    ensures ResolveFrom(v) == UnknownSender
  {
    assert Field(v, FromKeys[0]) == Str("");
  }

  /** The fields of the summary of a record with no usable field: each takes its default. */
  lemma BareRecordFields(v: Value, index: nat, p: Platform)
    requires v.Obj? && v.fields == map[]
    ensures ResolveId(v, index, p) == "message-" + NatToDecimal(index)
    ensures ResolveFrom(v) == UnknownSender
    ensures PickFirstString(v, SubjectKeys) == None && PickFirstString(v, SnippetKeys) == None
    ensures FormatReceivedAt(FirstPresent(v, DateKeys), p) == UnknownDate
    ensures ResolveUnread(v) == None
  {
    assert forall k :: Field(v, k) == Undefined;
  }

  /** The summary of an empty record: the positional id, "Unknown sender", "(no subject)",
      no snippet, "Unknown" date and no unread flag. */
  lemma EmptyRecordDefaults(index: nat, p: Platform)
    ensures Summarize(Obj(map[]), index, p) ==
      EmailSummary("message-" + NatToDecimal(index), UnknownSender, NoSubject, "", UnknownDate, None)
  {
    BareRecordFields(Obj(map[]), index, p);
  }

  /** The subject is "(no subject)" when no subject key holds visible text, and the snippet
      is empty when no snippet key does. */
  lemma SubjectAndSnippetDefaults(v: Value, index: nat, p: Platform)
    ensures (forall k :: 0 <= k < |SubjectKeys| ==> !HasText(Field(v, SubjectKeys[k]))) ==>
      Summarize(v, index, p).subject == NoSubject
    ensures (forall k :: 0 <= k < |SnippetKeys| ==> !HasText(Field(v, SnippetKeys[k]))) ==>
      Summarize(v, index, p).snippet == ""
  {
  }

  /** Every summary names a sender, has a subject with visible text, and a snippet that is
      either empty or has visible text. */
  lemma SummaryInvariants(v: Value, index: nat, p: Platform)
    ensures Summarize(v, index, p).from != ""
    ensures !IsJsBlank(Summarize(v, index, p).subject)
    ensures Summarize(v, index, p).snippet == "" || !IsJsBlank(Summarize(v, index, p).snippet)
  {
    assert !IsJsSpace(NoSubject[0]);
  }

  /** Any protocol but IMAP fails before the backend is asked, so the backend's answer does
      not matter. */
  lemma GuardBeforeFetch(
    a: Account, s: AccountSecret,
    fetch1: MailCoreConfig -> Result<seq<Value>, string>,
    fetch2: MailCoreConfig -> Result<seq<Value>, string>,
    p: Platform)
    requires a.protocol != Imap
    ensures FetchInboxSummaries(a, s, fetch1, p) == FetchInboxSummaries(a, s, fetch2, p)
    ensures FetchInboxSummaries(a, s, fetch1, p).Err?
    ensures FetchInboxSummaries(a, s, fetch1, p).error.Message() == UnsupportedProtocolMessage
  {
  }

  /** An empty inbox gives no summaries. */
  lemma EmptyInbox(
    a: Account, s: AccountSecret, fetch: MailCoreConfig -> Result<seq<Value>, string>, p: Platform)
    requires a.protocol == Imap && fetch(ConfigFor(a, s)) == Ok([])
    ensures FetchInboxSummaries(a, s, fetch, p) == Ok([])
  {
  }
}

=== FILE: ordered_map.dfy ===
/** A JavaScript `Map` with string keys: its entries together with its keys in insertion order, which is the
    order `Array.from(map.values())` lists them in. */
module OrderedMaps {
  import opened Wrappers

  /** Every element of `s` occurs once. */
  predicate Distinct(s: seq<string>) {
    forall i, j :: 0 <= i < j < |s| ==> s[i] != s[j]
  }

  /** `s` with every occurrence of `k` removed, the rest in order. */
  function Without(s: seq<string>, k: string): (r: seq<string>)
    ensures forall x :: x in r <==> x in s && x != k
    ensures Distinct(s) ==> Distinct(r)
    ensures k !in s ==> r == s
  {
    if s == [] then []
    else if s[0] == k then Without(s[1..], k)
    else
      var r := Without(s[1..], k);
      assert Distinct(s) ==> Distinct(s[1..]) && s[0] !in s[1..];
      [s[0]] + r
  }

  /** In a sequence without repetitions, removing the element at position `i` leaves the
      elements before it and the elements after it, in order. */
  lemma {:induction false} WithoutAt(s: seq<string>, k: string, i: nat)
    requires Distinct(s) && i < |s| && s[i] == k
    ensures Without(s, k) == s[..i] + s[i + 1..]
    decreases i
  {
    assert Distinct(s[1..]);
    if i == 0 {
      assert k !in s[1..];
    } else {
      assert s[0] != k;
      WithoutAt(s[1..], k, i - 1);
      assert s[..i] == [s[0]] + s[1..][..i - 1];
      assert s[i + 1..] == s[1..][i..];
    }
  }

  /** A sequence without repetitions has as many elements as its set. */
  lemma {:induction false} DistinctCardinality(s: seq<string>)
    requires Distinct(s)
    ensures |set x | x in s| == |s|
  {
    if s != [] {
      var rest := s[1..];
      assert Distinct(rest);
      DistinctCardinality(rest);
      assert (set x | x in s) == (set x | x in rest) + {s[0]};
      assert s[0] !in rest;
    }
  }

  datatype OrderedMap<V> = OrderedMap(order: seq<string>, entries: map<string, V>) {

    /** The insertion order lists every key exactly once. */
    predicate Valid() {
      && Distinct(order)
      && (forall k :: k in order ==> k in entries)
      && (forall k :: k in entries ==> k in order)
    }

    /** `map.get(k)`, with `undefined` as `None`. */
    function Get(k: string): Option<V> {
      if k in entries then Some(entries[k]) else None
    }

    /** `map.set(k, v)`: a new key goes to the end, an existing key keeps its place. */
    function Set(k: string, v: V): (m: OrderedMap<V>)
      requires Valid()
      ensures m.Valid()
      ensures m.Get(k) == Some(v)
      ensures forall k' :: k' != k ==> m.Get(k') == Get(k')
      ensures k in entries ==> m.order == order
      ensures k !in entries ==> m.order == order + [k]
    {
      if k in entries then OrderedMap(order, entries[k := v])
      else OrderedMap(order + [k], entries[k := v])
    }

    /** `map.delete(k)`. */
    function Delete(k: string): (m: OrderedMap<V>)
      requires Valid()
      ensures m.Valid()
      ensures m.Get(k) == None
      ensures forall k' :: k' != k ==> m.Get(k') == Get(k')
      ensures m.order == Without(order, k)
    {
      OrderedMap(Without(order, k), entries - {k})
    }

    /** `Array.from(map.values())`: one value per key, in insertion order. */
    function Values(): (vs: seq<V>)
      requires Valid()
      ensures |vs| == |order| == |entries|
      ensures forall i :: 0 <= i < |vs| ==> order[i] in entries && vs[i] == entries[order[i]]
    {
      DistinctCardinality(order);
      assert entries.Keys == set k | k in order;
      seq(|order|, i requires 0 <= i < |order| => entries[order[i]])
    }
  }

  /** Setting an existing key replaces its value in place in the listing; setting a new
      key appends its value. */
  lemma SetValues<V>(m: OrderedMap<V>, k: string, v: V)
    requires m.Valid()
    ensures k in m.entries ==>
      && |m.Set(k, v).Values()| == |m.Values()|
      && forall i :: 0 <= i < |m.order| ==>
           m.Set(k, v).Values()[i] == if m.order[i] == k then v else m.Values()[i]
    ensures k !in m.entries ==> m.Set(k, v).Values() == m.Values() + [v]
  {
    var before := m.Values();
    var m' := m.Set(k, v);
    var after := m'.Values();
    if k in m.entries {
      assert m'.order == m.order;
      forall i | 0 <= i < |m.order|
        ensures after[i] == if m.order[i] == k then v else before[i]
      {
        assert after[i] == m'.entries[m.order[i]];
      }
    } else {
      assert m'.order == m.order + [k];
      assert k !in m.order;
      forall i | 0 <= i < |after| ensures after[i] == (before + [v])[i] {
        assert after[i] == m'.entries[m'.order[i]];
        if i < |before| {
          assert m'.order[i] == m.order[i] != k;
        }
      }
    }
  }

  /** Deleting the key at position `i` takes its value out of the listing and keeps the
      other values in their order. */
  lemma DeleteValues<V>(m: OrderedMap<V>, k: string, i: nat)
    requires m.Valid() && i < |m.order| && m.order[i] == k
    ensures m.Delete(k).Values() == m.Values()[..i] + m.Values()[i + 1..]
  {
    var before := m.Values();
    var m' := m.Delete(k);
    var after := m'.Values();
    WithoutAt(m.order, k, i);
    forall j | 0 <= j < |after| ensures after[j] == (before[..i] + before[i + 1..])[j] {
      if j < i {
        assert m'.order[j] == m.order[j];
      } else {
        assert m'.order[j] == m.order[j + 1];
      }
    }
  }

  /** Deleting a missing key leaves the listing as it was. */
  lemma DeleteMissingValues<V>(m: OrderedMap<V>, k: string)
    requires m.Valid() && k !in m.entries
    ensures m.Delete(k).Values() == m.Values()
  {
    var m' := m.Delete(k);
    assert m'.order == m.order;
    forall j | 0 <= j < |m.order| ensures m'.Values()[j] == m.Values()[j] {
      assert m'.entries[m.order[j]] == m.entries[m.order[j]];
    }
  }

  /** `new Map()`, and `map.clear()`. */
  function EmptyMap<V>(): (m: OrderedMap<V>)
    ensures m.Valid()
    ensures forall k :: m.Get(k) == None
    ensures m.Values() == []
  {
    OrderedMap([], map[])
  }
}

=== FILE: settings.dfy ===
/** The account form of `SettingsScreen.tsx`: its initial state, loading an existing
    account into it, the checks that enable saving, and the account and secret a save
    builds. Rendering and React state plumbing are not modelled. */
module Settings {
  import opened Wrappers
  import opened Text
  import opened Accounts

  /** The text fields exactly as typed, plus the two option choices. */
  datatype FormState = FormState(
    email: string,
    protocol: Protocol,
    host: string,
    port: string,
    security: Security,
    username: string,
    password: string)

  const DefaultFormState := FormState("", Imap, "", "993", Ssl, "", "")

  /** Ports run from 1 to 65535. */
  const PortLimit := 65536

  /** The form for the account being edited: the defaults when there is none, otherwise its
      fields with the port as decimal text and the password of its secret ("" without one). */
  function LoadForm(initial: Option<Account>, secret: Option<AccountSecret>): (f: FormState)
    ensures initial.None? ==> f == DefaultFormState
    ensures initial.Some? ==>
      && f.host == initial.value.host && f.username == initial.value.username
      && f.email == initial.value.email && f.protocol == initial.value.protocol
      && f.security == initial.value.security
      && f.port == IntToDecimal(initial.value.port)
      && ParseInteger(f.port) == Some(initial.value.port)
      && f.password == (if secret.Some? then secret.value.password else "")
  {
    match initial
    case None => DefaultFormState
    case Some(a) =>
      ParseIntegerOfDecimal(a.port);
      FormState(a.email, a.protocol, a.host, IntToDecimal(a.port), a.security, a.username,
        if secret.Some? then secret.value.password else "")
  }

  /** `isPortValid`: the port text denotes an integer strictly between 0 and 65536. */
  function IsPortValid(f: FormState): (b: bool)
    ensures b ==> !IsJsBlank(f.port) && exists i :: 0 <= i < |f.port| && IsDigit(f.port[i])
  {
    var n := ParseInteger(f.port);
    n.Some? && 0 < n.value < PortLimit
  }

  /** `canSave`: host and username are not empty after trimming, the password (untrimmed)
      is not empty, and the port is valid. */
  function CanSave(f: FormState): (b: bool)
    ensures b <==> !IsJsBlank(f.host) && !IsJsBlank(f.username) && f.password != [] && IsPortValid(f)
  {
    |Trim(f.host)| > 0 && |Trim(f.username)| > 0 && |f.password| > 0 && IsPortValid(f)
  }

  /** What pressing save does. */
  datatype SaveOutcome = Skipped | Saved(account: Account, secret: AccountSecret)

  /** The id of a new account, made from `Date.now()`. */
  function FreshAccountId(now: nat): string {
    "account-" + NatToDecimal(now)
  }

  /** An account as a save leaves it: host, username and email trimmed and not empty,
      and a port in range. */
  predicate Canonical(a: Account) {
    && a.host == Trim(a.host) && a.host != []
    && a.username == Trim(a.username) && a.username != []
    && a.email == Trim(a.email) && a.email != []
    && 0 < a.port < PortLimit
  }

  /** `handleSave`: nothing happens unless the form can be saved and no save is running;
      otherwise the account keeps the edited account's id (or gets a fresh one), takes the
      trimmed email or else the trimmed username as its address, the trimmed host and
      username, and the parsed port, while the password is kept exactly as typed. */
  function HandleSave(f: FormState, saving: bool, initial: Option<Account>, now: nat): (r: SaveOutcome)
    ensures r.Skipped? <==> !CanSave(f) || saving
    ensures r.Saved? ==> r.account.id == if initial.Some? then initial.value.id else FreshAccountId(now)
    ensures r.Saved? ==> r.account.host == Trim(f.host) && r.account.username == Trim(f.username)
    ensures r.Saved? ==> r.account.email == if Trim(f.email) != [] then Trim(f.email) else Trim(f.username)
    ensures r.Saved? ==> Some(r.account.port) == ParseInteger(f.port)
    ensures r.Saved? ==> r.account.protocol == f.protocol && r.account.security == f.security
    ensures r.Saved? ==> r.secret.password == f.password
  {
    if !CanSave(f) || saving then Skipped
    else
      var id := if initial.Some? then initial.value.id else FreshAccountId(now);
      var email := if |Trim(f.email)| > 0 then Trim(f.email) else Trim(f.username);
      Saved(
        Account(id, email, f.protocol, Trim(f.host), ParseInteger(f.port).value, Trim(f.username), f.security),
        AccountSecret(f.password))
  }

  /** A trimmed text that is not empty is its own trim. */
  lemma TrimmedPart(s: string)
    requires |Trim(s)| > 0
    ensures Trim(Trim(s)) == Trim(s) && Trim(s) != []
  {
    TrimIdempotent(s);
  }

  /** Only a form that passes `canSave` is ever saved. */
  lemma SavedFormCanSave(f: FormState, saving: bool, initial: Option<Account>, now: nat)
    requires HandleSave(f, saving, initial, now).Saved?
    ensures CanSave(f) && !saving
  {
  }

  /** The address a save stores, the trimmed email or else the trimmed username, is
      trimmed and not empty once the username is. */
  lemma SaveAddressCanonical(email: string, username: string)
    requires |Trim(username)| > 0
    ensures var m := if Trim(email) != [] then Trim(email) else Trim(username);
      m == Trim(m) && m != []
  {
    if Trim(email) != [] {
      TrimmedPart(email);
    } else {
      TrimmedPart(username);
    }
  }

  /** The host a save stores is trimmed and not empty. */
  lemma SavedHostCanonical(f: FormState, saving: bool, initial: Option<Account>, now: nat)
    requires HandleSave(f, saving, initial, now).Saved?
    ensures var a := HandleSave(f, saving, initial, now).account;
      a.host == Trim(a.host) && a.host != []
  {
    SavedFormCanSave(f, saving, initial, now);
    TrimmedPart(f.host);
  }

  /** The username a save stores is trimmed and not empty. */
  lemma SavedUsernameCanonical(f: FormState, saving: bool, initial: Option<Account>, now: nat)
    requires HandleSave(f, saving, initial, now).Saved?
    ensures var a := HandleSave(f, saving, initial, now).account;
      a.username == Trim(a.username) && a.username != []
  {
    SavedFormCanSave(f, saving, initial, now);
    TrimmedPart(f.username);
  }

  /** The address a save stores is trimmed and not empty. */
  lemma SavedEmailCanonical(f: FormState, saving: bool, initial: Option<Account>, now: nat)
    requires HandleSave(f, saving, initial, now).Saved?
    ensures var a := HandleSave(f, saving, initial, now).account;
      a.email == Trim(a.email) && a.email != []
  {
    SavedFormCanSave(f, saving, initial, now);
    SaveAddressCanonical(f.email, f.username);
  }

  /** Every saved account is canonical and comes with a non-empty password. */
  lemma SavedIsCanonical(f: FormState, saving: bool, initial: Option<Account>, now: nat)
    requires HandleSave(f, saving, initial, now).Saved?
    ensures Canonical(HandleSave(f, saving, initial, now).account)
    ensures |HandleSave(f, saving, initial, now).secret.password| > 0
  {
    SavedFormCanSave(f, saving, initial, now);
    SavedHostCanonical(f, saving, initial, now);
    SavedUsernameCanonical(f, saving, initial, now);
    SavedEmailCanonical(f, saving, initial, now);
  }

  /** Opening a saved account in the form and saving it again, unchanged, stores the very
      same account and secret. */
  lemma ReopenAndSave(a: Account, s: AccountSecret, now: nat)
    requires Canonical(a) && |s.password| > 0
    ensures HandleSave(LoadForm(Some(a), Some(s)), false, Some(a), now) == Saved(a, s)
  {
    var f := LoadForm(Some(a), Some(s));
    assert CanSave(f);
  }

  /** Whatever a save stores is stored again unchanged when it is reopened and saved. */
  lemma SaveIsStable(f: FormState, initial: Option<Account>, now: nat, later: nat)
    requires HandleSave(f, false, initial, now).Saved?
    ensures var out := HandleSave(f, false, initial, now);
      HandleSave(LoadForm(Some(out.account), Some(out.secret)), false, Some(out.account), later) == out
  {
    var out := HandleSave(f, false, initial, now);
    SavedIsCanonical(f, false, initial, now);
    ReopenAndSave(out.account, out.secret, later);
  }

  /** A port written out in decimal, as the form shows a loaded account's port, is valid
      exactly when it lies between 1 and 65535. */
  lemma {:induction false} PortTextValid(f: FormState, n: int)
    requires f.port == IntToDecimal(n)
    ensures IsPortValid(f) <==> 0 < n < PortLimit
  {
    ParseIntegerOfDecimal(n);
  }

  /** A port text made of whitespace, an optional sign, decimal digits and whitespace is
      valid exactly when the integer its sign and digits denote lies between 1 and 65535:
      leading zeros, a `+` and the surrounding whitespace do not matter. */
  lemma PortIntegerText(f: FormState, before: string, sign: string, digits: string, after: string)
    requires IsIntegerText(f.port, before, sign, digits, after)
    ensures IsPortValid(f) <==> 0 < SignedValue(sign, digits) < PortLimit
  {
    ParseIntegerPadded(f.port, before, sign, digits, after);
  }

  /** The valid port texts are exactly the integer texts denoting 1 to 65535. */
  lemma PortTextForm(f: FormState)
    ensures IsPortValid(f) <==> exists before, sign, digits, after ::
      IsIntegerText(f.port, before, sign, digits, after) && 0 < SignedValue(sign, digits) < PortLimit
  {
    if IsPortValid(f) {
      ParseIntegerShape(f.port);
    }
    forall before, sign, digits, after | IsIntegerText(f.port, before, sign, digits, after)
      ensures IsPortValid(f) <==> 0 < SignedValue(sign, digits) < PortLimit
    {
      PortIntegerText(f, before, sign, digits, after);
    }
  }

  /** Zeros alone are no port. */
  lemma ZerosPortInvalid()
    ensures !IsPortValid(DefaultFormState.(port := "00"))
  {
    var f := DefaultFormState.(port := "00");
    assert f.port == "" + "" + "00" + "";
    assert "00" == "0" + "0" && "0"[..0] == [];
    DigitsValueLeadingZero("0");
    PortIntegerText(f, "", "", "00", "");
  }

  /** Leading zeros leave a port valid. */
  lemma LeadingZeroPortValid()
    ensures IsPortValid(DefaultFormState.(port := "0993"))
  {
    var f := DefaultFormState.(port := "0993");
    assert f.port == "" + "" + "0993" + "";
    assert "0993" == "0" + "993";
    DigitsValueLeadingZero("993");
    DefaultPortText();
    DigitsValueOfDecimal(993);
    PortIntegerText(f, "", "", "0993", "");
  }

  /** A plus sign and surrounding spaces leave a port valid. */
  lemma PaddedPortValid()
    ensures IsPortValid(DefaultFormState.(port := " +993 "))
  {
    var f := DefaultFormState.(port := " +993 ");
    assert f.port == " " + "+" + "993" + " ";
    assert "993"[..2] == "99" && "99"[..1] == "9" && "9"[..0] == [];
    PortIntegerText(f, " ", "+", "993", " ");
  }

  /** The default port text is the decimal rendering of 993. */
  lemma DefaultPortText()
    ensures IntToDecimal(993) == DefaultFormState.port
  {
  }

  /** The default port text reads as 993. */
  lemma DefaultPortParses()
    ensures ParseInteger(DefaultFormState.port) == Some(993)
  {
    ParseIntegerOfDecimal(993);
    DefaultPortText();
  }

  /** The default form cannot be saved, since host, username and password are empty, but
      its port is valid. */
  lemma DefaultFormNotSavable()
    ensures !CanSave(DefaultFormState)
    ensures IsPortValid(DefaultFormState)
  {
    DefaultPortParses();
  }

}

=== FILE: summarize.dfy ===
/** The snippet summariser of `summarize.ts`: the body is trimmed, every run of whitespace
    becomes one space, and the first 140 characters follow the subject. */
module Summarizer {
  import opened Text

  const SnippetLimit: nat := 140
  const NoContent := "(no content)"

  datatype SummarizeInput = SummarizeInput(subject: string, from: string, body: string)

  /** No two neighbouring characters are both whitespace. */
  predicate NoAdjacentSpaces(s: string) {
    forall i :: 0 <= i < |s| - 1 ==> !(IsJsSpace(s[i]) && IsJsSpace(s[i + 1]))
  }

  /** The only whitespace character in `s` is the plain space. */
  predicate OnlyPlainSpaces(s: string) {
    forall i :: 0 <= i < |s| ==> IsJsSpace(s[i]) ==> s[i] == ' '
  }

  /** The non-whitespace characters of `s`, in order. */
  function Visible(s: string): string
  {
    if s == [] then []
    else if IsJsSpace(s[0]) then Visible(s[1..])
    else [s[0]] + Visible(s[1..])
  }

  /** No character of `w` is whitespace. */
  predicate Unbroken(w: string) {
    forall i :: 0 <= i < |w| ==> !IsJsSpace(w[i])
  }

  /** The words of `s`: its maximal runs of non-whitespace characters, in order. */
  function Words(s: string): (ws: seq<string>)
    ensures s != [] && !IsJsSpace(s[0]) ==> |ws| > 0 && ws[0] != [] && ws[0][0] == s[0]
    ensures forall i :: 0 <= i < |ws| ==> ws[i] != [] && Unbroken(ws[i])
    decreases |s|
  {
    if s == [] then []
    else if IsJsSpace(s[0]) then Words(s[1..])
    else
      var rest := Words(s[1..]);
      if |s| > 1 && !IsJsSpace(s[1]) then [[s[0]] + rest[0]] + rest[1..]
      else [[s[0]]] + rest
  }

  /** Leading whitespace separates no words. */
  lemma {:induction false} WordsTrimStart(s: string)
    ensures Words(TrimStart(s)) == Words(s)
    decreases |s|
  {
    if s != [] && IsJsSpace(s[0]) {
      WordsTrimStart(s[1..]);
    }
  }

  /** Whitespace alone has no words. */
  lemma {:induction false} WordsOfBlank(b: string)
    requires IsJsBlank(b)
    ensures Words(b) == []
    decreases |b|
  {
    if b != [] {
      WordsOfBlank(b[1..]);
    }
  }

  /** Whitespace appended to `a` adds no words and joins none. */
  lemma {:induction false} WordsAppendBlank(a: string, b: string)
    requires IsJsBlank(b)
    ensures Words(a + b) == Words(a)
    decreases |a|
  {
    if a == [] {
      assert a + b == b;
      WordsOfBlank(b);
    } else {
      assert (a + b)[0] == a[0];
      assert (a + b)[1..] == a[1..] + b;
      WordsAppendBlank(a[1..], b);
      if |a| > 1 {
        assert (a + b)[1] == a[1];
      } else if b != [] {
        assert (a + b)[1] == b[0];
      }
    }
  }

  /** Trailing whitespace separates no words. */
  lemma WordsTrimEnd(s: string)
    ensures Words(TrimEnd(s)) == Words(s)
  {
    var t := TrimEnd(s);
    assert s == t + s[|t|..];
    WordsAppendBlank(t, s[|t|..]);
  }

  /** Leading whitespace is invisible. */
  lemma {:induction false} VisibleTrimStart(s: string)
    ensures Visible(TrimStart(s)) == Visible(s)
  {
    if s != [] && IsJsSpace(s[0]) {
      VisibleTrimStart(s[1..]);
    }
  }

  lemma {:induction false} VisibleAppend(a: string, b: string)
    ensures Visible(a + b) == Visible(a) + Visible(b)
  {
    if a == [] {
      assert a + b == b;
    } else {
      assert (a + b)[0] == a[0];
      assert (a + b)[1..] == a[1..] + b;
      VisibleAppend(a[1..], b);
    }
  }

  /** Trailing whitespace is invisible. */
  lemma {:induction false} VisibleTrimEnd(s: string)
    ensures Visible(TrimEnd(s)) == Visible(s)
  {
    if s != [] && IsJsSpace(s[|s| - 1]) {
      var init := s[..|s| - 1];
      VisibleTrimEnd(init);
      assert s == init + [s[|s| - 1]];
      VisibleAppend(init, [s[|s| - 1]]);
      assert Visible([s[|s| - 1]]) == [];
    }
  }

  /** Prepending one character to a string whose whitespace is single plain spaces keeps
      it so, as long as the character is not whitespace or is a space before a
      non-whitespace character. */
  lemma ConsShape(x: char, c: string)
    requires NoAdjacentSpaces(c) && OnlyPlainSpaces(c)
    requires IsJsSpace(x) ==> x == ' ' && (c == [] || !IsJsSpace(c[0]))
    ensures NoAdjacentSpaces([x] + c) && OnlyPlainSpaces([x] + c)
  {
    var t := [x] + c;
    forall i | 0 <= i < |t| - 1 ensures !(IsJsSpace(t[i]) && IsJsSpace(t[i + 1])) {
      if i > 0 { assert t[i] == c[i - 1] && t[i + 1] == c[i]; }
    }
    forall i | 0 <= i < |t| ensures IsJsSpace(t[i]) ==> t[i] == ' ' {
      if i > 0 { assert t[i] == c[i - 1]; }
    }
  }

  /** `s.replace(/\s+/g, ' ')`: each maximal run of whitespace becomes a single space. */
  function CollapseSpaces(s: string): (t: string)
    ensures t == [] <==> s == []
    ensures s != [] ==> (IsJsSpace(t[0]) <==> IsJsSpace(s[0]))
    ensures s != [] ==> (IsJsSpace(t[|t| - 1]) <==> IsJsSpace(s[|s| - 1]))
    ensures NoAdjacentSpaces(t)
    ensures OnlyPlainSpaces(t)
    ensures Visible(t) == Visible(s)
    ensures Words(t) == Words(s)
    decreases |s|
  {
    if s == [] then []
    else if IsJsSpace(s[0]) then
      var rest := TrimStart(s);
      VisibleTrimStart(s);
      WordsTrimStart(s);
      assert rest == [] ==> s[..|s| - |rest|] == s;
      var c := CollapseSpaces(rest);
      ConsShape(' ', c);
      [' '] + c
    else
      var c := CollapseSpaces(s[1..]);
      ConsShape(s[0], c);
      [s[0]] + c
  }

  /** The whitespace-normalised body. */
  function Normalize(body: string): string
  {
    CollapseSpaces(Trim(body))
  }

  /** The first `n` characters of `s`, or all of it when it is shorter (`slice(0, n)`). */
  function Prefix(s: string, n: nat): (t: string)
    ensures |t| <= n && t <= s
    ensures |s| <= n ==> t == s
    ensures |s| > n ==> |t| == n
  {
    if |s| <= n then s else s[..n]
  }

  /** `summarizeEmail`: the subject, a colon and a space, then the first 140 characters of
      the normalised body, or "(no content)" when the body is blank. */
  function SummarizeEmail(input: SummarizeInput): (r: string)
    ensures |r| >= |input.subject| + 2 && r[..|input.subject| + 2] == input.subject + ": "
    ensures IsJsBlank(input.body) ==> r == input.subject + ": " + NoContent
    ensures !IsJsBlank(input.body) ==>
      var snippet := r[|input.subject| + 2..];
      && 0 < |snippet| <= SnippetLimit
      && snippet <= Normalize(input.body)
      && (|Normalize(input.body)| <= SnippetLimit ==> snippet == Normalize(input.body))
      && (|Normalize(input.body)| > SnippetLimit ==> snippet == Normalize(input.body)[..SnippetLimit])
  {
    var head := input.subject + ": ";
    var normalized := Normalize(input.body);
    var snippet := Prefix(normalized, SnippetLimit);
    TrimEmptyIffBlank(input.body);
    assert snippet == [] <==> IsJsBlank(input.body);
    var r := if snippet == [] then head + NoContent else head + snippet;
    assert r[..|head|] == head;
    assert snippet != [] ==> r[|head|..] == snippet;
    r
  }

  /** The normalised body has no whitespace at either end, no two whitespace characters in
      a row, and no whitespace other than plain spaces. */
  lemma NormalizedShape(body: string)
    ensures var n := Normalize(body);
      && (n == [] || (!IsJsSpace(n[0]) && !IsJsSpace(n[|n| - 1])))
      && NoAdjacentSpaces(n)
      && OnlyPlainSpaces(n)
  {
    TrimSpec(body);
  }

  /** Normalising keeps every non-whitespace character of the body, in order. */
  lemma NormalizeKeepsVisible(body: string)
    ensures Visible(Normalize(body)) == Visible(body)
  {
    VisibleTrimStart(body);
    VisibleTrimEnd(TrimStart(body));
  }

  /** Normalising keeps the words of the body, in order. */
  lemma NormalizeKeepsWords(body: string)
    ensures Words(Normalize(body)) == Words(body)
  {
    WordsTrimStart(body);
    WordsTrimEnd(TrimStart(body));
  }

  /** Dropping the first character keeps a string's whitespace single plain spaces. */
  lemma TailShape(s: string)
    requires s != [] && NoAdjacentSpaces(s) && OnlyPlainSpaces(s)
    ensures NoAdjacentSpaces(s[1..]) && OnlyPlainSpaces(s[1..])
  {
    var t := s[1..];
    forall i | 0 <= i < |t| - 1 ensures !(IsJsSpace(t[i]) && IsJsSpace(t[i + 1])) {
      assert t[i] == s[i + 1] && t[i + 1] == s[i + 2];
    }
    forall i | 0 <= i < |t| ensures IsJsSpace(t[i]) ==> t[i] == ' ' {
      assert t[i] == s[i + 1];
    }
  }

  /** Collapsing leaves a string alone when its whitespace is already single plain spaces. */
  lemma {:induction false} CollapseFixedPoint(s: string)
    requires NoAdjacentSpaces(s) && OnlyPlainSpaces(s)
    ensures CollapseSpaces(s) == s
    decreases |s|
  {
    if s != [] {
      var tail := s[1..];
      TailShape(s);
      CollapseFixedPoint(tail);
      assert s == [s[0]] + tail;
      if IsJsSpace(s[0]) {
        assert s[0] == ' ';
        assert tail == [] || !IsJsSpace(tail[0]) by {
          if tail != [] { assert tail[0] == s[1]; }
        }
        assert TrimStart(tail) == tail;
        assert TrimStart(s) == tail;
        assert CollapseSpaces(s) == [' '] + CollapseSpaces(tail);
      } else {
        assert CollapseSpaces(s) == [s[0]] + CollapseSpaces(tail);
      }
    }
  }

  /** Normalising twice is normalising once. */
  lemma NormalizeIdempotent(body: string)
    ensures Normalize(Normalize(body)) == Normalize(body)
  {
    var n := Normalize(body);
    NormalizedShape(body);
    TrimIdentity(n);
    CollapseFixedPoint(n);
  }
}

=== FILE: text.dfy ===
/** Character classes and string helpers shared by the TypeScript and the Kotlin code:
    the two whitespace sets, trimming, blankness, ASCII lower-casing, and decimal
    rendering and parsing of integers. */
module Text {
  import opened Wrappers

  /** JavaScript whitespace: WhiteSpace and LineTerminator of ECMA-262, the set used by
      both `String.prototype.trim` and the regular-expression class `\s`. */
  predicate IsJsSpace(c: char) {
    var n := c as int;
    (0x09 <= n <= 0x0D) || n == 0x20 || n == 0xA0 || n == 0x1680 || (0x2000 <= n <= 0x200A)
    || n == 0x2028 || n == 0x2029 || n == 0x202F || n == 0x205F || n == 0x3000 || n == 0xFEFF
  }

  /** Kotlin `Char.isWhitespace` on the JVM: `Character.isWhitespace || Character.isSpaceChar`,
      i.e. the Unicode separators Zs, Zl, Zp plus U+0009..U+000D and U+001C..U+001F. */
  predicate IsKotlinSpace(c: char) {
    var n := c as int;
    (0x09 <= n <= 0x0D) || (0x1C <= n <= 0x1F) || n == 0x20
    || n == 0xA0 || n == 0x1680 || (0x2000 <= n <= 0x200A)
    || n == 0x2028 || n == 0x2029 || n == 0x202F || n == 0x205F || n == 0x3000
  }

  /** `s.trim().length === 0` in JavaScript. */
  predicate IsJsBlank(s: string) {
    forall i :: 0 <= i < |s| ==> IsJsSpace(s[i])
  }

  /** `s.isBlank()` in Kotlin. */
  predicate IsKotlinBlank(s: string) {
    forall i :: 0 <= i < |s| ==> IsKotlinSpace(s[i])
  }

  /** Drops the leading JavaScript whitespace of `s`. */
  function TrimStart(s: string): (t: string)
    ensures |t| <= |s| && t == s[|s| - |t|..]
    ensures t == [] || !IsJsSpace(t[0])
    ensures IsJsBlank(s[..|s| - |t|])
  {
    if s == [] || !IsJsSpace(s[0]) then s
    else
      var t := TrimStart(s[1..]);
      assert s[1..][..|s[1..]| - |t|] == s[1..|s| - |t|];
      t
  }

  /** Drops the trailing JavaScript whitespace of `s`. */
  function TrimEnd(s: string): (t: string)
    ensures |t| <= |s| && t == s[..|t|]
    ensures t == [] || !IsJsSpace(t[|t| - 1])
    ensures IsJsBlank(s[|t|..])
  {
    if s == [] || !IsJsSpace(s[|s| - 1]) then s
    else
      var t := TrimEnd(s[..|s| - 1]);
      assert s[..|s| - 1][|t|..] == s[|t|..|s| - 1];
      t
  }

  /** `String.prototype.trim`. */
  function Trim(s: string): (t: string)
    ensures |t| <= |s|
    ensures t == [] || (!IsJsSpace(t[0]) && !IsJsSpace(t[|t| - 1]))
    ensures t == [] <==> IsJsBlank(s)
  {
    var a := TrimStart(s);
    var t := TrimEnd(a);
    assert t != [] ==> t[0] == a[0];
    assert a == [] ==> s[..|s| - |a|] == s;
    assert t == [] ==> a[|t|..] == a;
    assert a != [] ==> a[0] == s[|s| - |a|];
    t
  }

  /** `trim` is `TrimEnd` after `TrimStart`. */
  lemma TrimIsStartEnd(s: string)
    ensures Trim(s) == TrimEnd(TrimStart(s))
  {
  }

  /** A prefix of a suffix is a slice. */
  lemma PrefixOfSuffix(s: string, a: string, t: string)
    requires |a| <= |s| && a == s[|s| - |a|..]
    requires |t| <= |a| && t == a[..|t|]
    ensures t == s[|s| - |a|..|s| - |a| + |t|]
  {
  }

  /** The trimmed text is the slice of `s` that starts where the leading whitespace ends. */
  lemma TrimSlice(s: string)
    ensures var k := |s| - |TrimStart(s)|;
      var t := Trim(s);
      k + |t| <= |s| && t == s[k..k + |t|]
  {
    TrimIsStartEnd(s);
    TrimmedSlice(s, Trim(s));
  }

  /** `TrimSlice` for a text known to be what `TrimEnd` keeps of what `TrimStart` keeps. */
  lemma TrimmedSlice(s: string, t: string)
    requires t == TrimEnd(TrimStart(s))
    ensures var k := |s| - |TrimStart(s)|;
      k + |t| <= |s| && t == s[k..k + |t|]
  {
    StartEndSlice(s, TrimStart(s), t);
  }

  /** What `TrimEnd` keeps of what `TrimStart` keeps is a slice of `s`. */
  lemma StartEndSlice(s: string, a: string, t: string)
    requires a == TrimStart(s) && t == TrimEnd(a)
    ensures |s| - |a| + |t| <= |s| && t == s[|s| - |a|..|s| - |a| + |t|]
  {
    PrefixOfSuffix(s, a, t);
  }

  /** What follows the trimmed text in `s` is whitespace. */
  lemma TrimTrailingBlank(s: string)
    ensures var k := |s| - |TrimStart(s)|;
      var t := Trim(s);
      k + |t| <= |s| && IsJsBlank(s[k + |t|..])
  {
    var a := TrimStart(s);
    var t := TrimEnd(a);
    var k := |s| - |a|;
    assert a == s[k..];
    assert IsJsBlank(a[|t|..]);
    forall i | k + |t| <= i < |s|
      ensures IsJsSpace(s[i])
    {
      assert s[i] == a[i - k];
      assert a[i - k] == a[|t|..][i - k - |t|];
    }
  }

  /** The trimmed text neither starts nor ends with whitespace. */
  lemma TrimEnds(s: string)
    ensures var t := Trim(s);
      t == [] || (!IsJsSpace(t[0]) && !IsJsSpace(t[|t| - 1]))
  {
    var a := TrimStart(s);
    var t := TrimEnd(a);
    assert t == a[..|t|];
    assert t != [] ==> t[0] == a[0];
  }

  /** Trimming keeps the middle part of `s` that starts after its leading whitespace and
      removes only whitespace; what remains neither starts nor ends with whitespace. */
  lemma TrimSpec(s: string)
    ensures var k := |s| - |TrimStart(s)|;
      var t := Trim(s);
      && k + |t| <= |s|
      && t == s[k..k + |t|]
      && IsJsBlank(s[..k]) && IsJsBlank(s[k + |t|..])
      && (t == [] || (!IsJsSpace(t[0]) && !IsJsSpace(t[|t| - 1])))
  {
    TrimSlice(s);
    TrimTrailingBlank(s);
    TrimEnds(s);
  }

  /** A string is blank exactly when trimming empties it. */
  lemma TrimEmptyIffBlank(s: string)
    ensures Trim(s) == [] <==> IsJsBlank(s)
  {
  }

  /** A string without leading or trailing whitespace is left alone by `trim`. */
  lemma TrimIdentity(s: string)
    requires s == [] || (!IsJsSpace(s[0]) && !IsJsSpace(s[|s| - 1]))
    ensures Trim(s) == s
  {
  }

  /** Trimming twice is trimming once. */
  lemma TrimIdempotent(s: string)
    ensures Trim(Trim(s)) == Trim(s)
  {
    TrimSpec(s);
    TrimIdentity(Trim(s));
  }

  /** ASCII part of Kotlin's `lowercase(Locale.US)`. */
  function LowerAscii(s: string): (t: string)
    ensures |t| == |s|
    ensures forall i :: 0 <= i < |s| ==>
      t[i] == (if 'A' <= s[i] <= 'Z' then (s[i] as int + 32) as char else s[i])
  {
    if s == [] then []
    else
      var c := s[0];
      [if 'A' <= c <= 'Z' then (c as int + 32) as char else c] + LowerAscii(s[1..])
  }

  predicate IsDigit(c: char) {
    '0' <= c <= '9'
  }

  function DigitChar(d: nat): (c: char)
    requires d < 10
    ensures IsDigit(c) && c as int - '0' as int == d
  {
    ('0' as int + d) as char
  }

  predicate AllDigits(s: string) {
    forall i :: 0 <= i < |s| ==> IsDigit(s[i])
  }

  /** The value of a string of decimal digits (leading zeros allowed). */
  function DigitsValue(s: string): nat
    requires AllDigits(s)
  {
    if s == [] then 0
    else DigitsValue(s[..|s| - 1]) * 10 + (s[|s| - 1] as int - '0' as int)
  }

  /** The decimal rendering of a natural number, as JavaScript `String(n)` and Kotlin
      `toString()` produce it for integers: digits only, no leading zero. */
  function NatToDecimal(n: nat): (s: string)
    ensures |s| > 0 && AllDigits(s)
    ensures s[0] == '0' ==> n == 0
    decreases n
  {
    if n < 10 then [DigitChar(n)] else NatToDecimal(n / 10) + [DigitChar(n % 10)]
  }

  /** Integer text as JavaScript `String(n)` writes it: an optional minus sign, then
      digits with no leading zero, and zero written as a single unsigned `0`. */
  predicate IsCanonicalInteger(s: string) {
    || (s != [] && AllDigits(s) && (s[0] == '0' ==> |s| == 1))
    || (|s| > 1 && s[0] == '-' && AllDigits(s[1..]) && s[1] != '0')
  }

  /** Decimal rendering of an integer: a minus sign for negative values. */
  function IntToDecimal(i: int): (s: string)
    ensures IsCanonicalInteger(s)
    ensures i < 0 <==> s[0] == '-'
  {
    if i < 0 then "-" + NatToDecimal(-i) else NatToDecimal(i)
  }

  /** Reading back a rendered natural number gives the number. */
  lemma {:induction false} DigitsValueOfDecimal(n: nat)
    ensures DigitsValue(NatToDecimal(n)) == n
    decreases n
  {
    if n >= 10 {
      var s := NatToDecimal(n);
      DigitsValueOfDecimal(n / 10);
      assert s[..|s| - 1] == NatToDecimal(n / 10);
    }
  }

  /** Digits without a leading zero denote a positive number. */
  lemma {:induction false} DigitsValuePositive(d: string)
    requires d != [] && AllDigits(d) && d[0] != '0'
    ensures DigitsValue(d) > 0
    decreases |d|
  {
    if |d| > 1 {
      var p := d[..|d| - 1];
      assert p[0] == d[0];
      DigitsValuePositive(p);
    }
  }

  /** Digits without a leading zero are the rendering of their own value. */
  lemma {:induction false} DecimalOfDigitsValue(d: string)
    requires d != [] && AllDigits(d) && (d[0] == '0' ==> |d| == 1)
    ensures NatToDecimal(DigitsValue(d)) == d
    decreases |d|
  {
    var n := DigitsValue(d);
    if |d| == 1 {
      assert d[..0] == [];
    } else {
      var p := d[..|d| - 1];
      assert p[0] == d[0];
      DigitsValuePositive(p);
      DecimalOfDigitsValue(p);
      assert n / 10 == DigitsValue(p) && n % 10 == d[|d| - 1] as int - '0' as int;
      assert d == p + [d[|d| - 1]];
    }
  }

  /** Distinct numbers render differently. */
  lemma NatToDecimalInjective(m: nat, n: nat)
    requires NatToDecimal(m) == NatToDecimal(n)
    ensures m == n
  {
    DigitsValueOfDecimal(m);
    DigitsValueOfDecimal(n);
  }

  /** An optional `+` or `-` followed by at least one decimal digit, read as an integer;
      `None` for any other string. */
  function SignedDigits(t: string): (r: Option<int>)
  {
    if t != [] && AllDigits(t) then Some(DigitsValue(t))
    else if |t| > 1 && t[0] == '+' && AllDigits(t[1..]) then Some(DigitsValue(t[1..]))
    else if |t| > 1 && t[0] == '-' && AllDigits(t[1..]) then Some(0 - DigitsValue(t[1..]) as int)
    else None
  }

  /** The integer a string denotes when read as a JavaScript `Number`, restricted to
      signed decimal integers: surrounding whitespace is ignored, a blank string reads as
      0, an optional `+` or `-` may precede at least one digit; anything else is `NaN`
      (`None`). */
  function ParseInteger(s: string): (r: Option<int>)
    ensures IsJsBlank(s) ==> r == Some(0)
    ensures r.Some? && !IsJsBlank(s) ==> exists i :: 0 <= i < |s| && IsDigit(s[i])
  {
    var t := Trim(s);
    TrimmedDigit(s);
    if t == [] then Some(0) else SignedDigits(t)
  }

  /** A trimmed text that reads as a signed integer has a digit, and so has the text. */
  lemma TrimmedDigit(s: string)
    ensures Trim(s) != [] && SignedDigits(Trim(s)).Some? ==> exists i :: 0 <= i < |s| && IsDigit(s[i])
  {
    var t := Trim(s);
    if t != [] && SignedDigits(t).Some? {
      SignedDigitsEndsInDigit(t);
      TrimSlice(s);
      var k := |s| - |TrimStart(s)|;
      assert s[k + |t| - 1] == t[|t| - 1];
    }
  }

  /** A signed integer text ends in a digit. */
  lemma SignedDigitsEndsInDigit(t: string)
    requires SignedDigits(t).Some?
    ensures t != [] && IsDigit(t[|t| - 1])
  {
    if !AllDigits(t) {
      assert t[1..][|t| - 2] == t[|t| - 1];
    }
  }

  /** Canonical integer text is exactly the rendering of the integer it reads as, so two
      canonical texts for the same integer are equal. */
  lemma CanonicalIntegerText(s: string)
    requires IsCanonicalInteger(s)
    ensures ParseInteger(s).Some? && IntToDecimal(ParseInteger(s).value) == s
  {
    assert !IsJsSpace(s[0]) && !IsJsSpace(s[|s| - 1]);
    TrimIdentity(s);
    if s[0] == '-' {
      var d := s[1..];
      assert !AllDigits(s) by { assert !IsDigit(s[0]); }
      DigitsValuePositive(d);
      DecimalOfDigitsValue(d);
      assert s == "-" + d;
    } else {
      DecimalOfDigitsValue(s);
    }
  }

  /** A leading zero does not change the value of a string of digits. */
  lemma {:induction false} DigitsValueLeadingZero(d: string)
    requires AllDigits(d)
    ensures AllDigits("0" + d) && DigitsValue("0" + d) == DigitsValue(d)
    decreases |d|
  {
    var z := "0" + d;
    if d == [] {
      assert z[..0] == [];
    } else {
      var init := d[..|d| - 1];
      assert z[..|z| - 1] == "0" + init;
      assert z[|z| - 1] == d[|d| - 1];
      DigitsValueLeadingZero(init);
    }
  }

  /** `s` is whitespace, an optional `+` or `-`, at least one decimal digit, and whitespace:
      the integer texts `Number` reads. */
  predicate IsIntegerText(s: string, before: string, sign: string, digits: string, after: string) {
    && s == before + sign + digits + after
    && IsJsBlank(before) && IsJsBlank(after)
    && (sign == "" || sign == "+" || sign == "-")
    && digits != [] && AllDigits(digits)
  }

  /** The integer that a sign and digits denote; leading zeros do not matter. */
  function SignedValue(sign: string, digits: string): int
    requires AllDigits(digits)
  {
    if sign == "-" then 0 - DigitsValue(digits) as int else DigitsValue(digits)
  }

  /** Leading whitespace in front of a text that starts visibly is all `TrimStart` drops. */
  lemma {:induction false} TrimStartBlankPrefix(a: string, y: string)
    requires IsJsBlank(a) && y != [] && !IsJsSpace(y[0])
    ensures TrimStart(a + y) == y
    decreases |a|
  {
    if a == [] {
      assert a + y == y;
    } else {
      assert (a + y)[0] == a[0];
      assert (a + y)[1..] == a[1..] + y;
      TrimStartBlankPrefix(a[1..], y);
    }
  }

  /** Trailing whitespace after a text that ends visibly is all `TrimEnd` drops. */
  lemma {:induction false} TrimEndBlankSuffix(y: string, b: string)
    requires IsJsBlank(b) && y != [] && !IsJsSpace(y[|y| - 1])
    ensures TrimEnd(y + b) == y
    decreases |b|
  {
    if b == [] {
      assert y + b == y;
    } else {
      assert (y + b)[|y + b| - 1] == b[|b| - 1];
      assert (y + b)[..|y + b| - 1] == y + b[..|b| - 1];
      TrimEndBlankSuffix(y, b[..|b| - 1]);
    }
  }

  /** Trimming a visible text padded with whitespace gives back the text. */
  lemma TrimAround(a: string, x: string, b: string)
    requires IsJsBlank(a) && IsJsBlank(b)
    requires x != [] && !IsJsSpace(x[0]) && !IsJsSpace(x[|x| - 1])
    ensures Trim(a + x + b) == x
  {
    assert (x + b)[0] == x[0];
    assert a + x + b == a + (x + b);
    TrimStartBlankPrefix(a, x + b);
    TrimEndBlankSuffix(x, b);
  }

  /** An integer text trims to its sign and digits. */
  lemma TrimIntegerText(s: string, before: string, sign: string, digits: string, after: string)
    requires IsIntegerText(s, before, sign, digits, after)
    ensures Trim(s) == sign + digits
  {
    var x := sign + digits;
    assert x[|x| - 1] == digits[|digits| - 1];
    assert x[0] == if sign == "" then digits[0] else sign[0];
    assert s == before + x + after;
    TrimAround(before, x, after);
  }

  /** A sign and digits read as the integer they denote. */
  lemma SignedDigitsOfSign(sign: string, digits: string)
    requires (sign == "" || sign == "+" || sign == "-") && digits != [] && AllDigits(digits)
    ensures SignedDigits(sign + digits) == Some(SignedValue(sign, digits))
  {
    var x := sign + digits;
    if sign == "" {
      assert x == digits;
    } else {
      assert !AllDigits(x) by { assert x[0] == sign[0]; assert !IsDigit(x[0]); }
      assert x[1..] == digits;
    }
  }

  /** Every integer text reads as the integer its sign and digits denote, leading zeros
      and surrounding whitespace included. */
  lemma ParseIntegerPadded(s: string, before: string, sign: string, digits: string, after: string)
    requires IsIntegerText(s, before, sign, digits, after)
    ensures ParseInteger(s) == Some(SignedValue(sign, digits))
  {
    TrimIntegerText(s, before, sign, digits, after);
    SignedDigitsOfSign(sign, digits);
  }

  /** The sign a signed-digit text starts with, if any. */
  function SignPart(t: string): string
  {
    if t != [] && (t[0] == '+' || t[0] == '-') then [t[0]] else ""
  }

  /** A text `SignedDigits` accepts is its sign followed by at least one digit. */
  lemma SignedDigitsShape(t: string)
    requires SignedDigits(t).Some?
    ensures var sign := SignPart(t);
      |sign| < |t| && t == sign + t[|sign|..] && AllDigits(t[|sign|..])
  {
    if AllDigits(t) {
      assert IsDigit(t[0]);
    }
  }

  /** A text is its prefix, a middle slice and the rest. */
  lemma SplitThree(s: string, k: nat, n: nat)
    requires k + n <= |s|
    ensures s == s[..k] + s[k..k + n] + s[k + n..]
  {
  }

  /** `s` is `t` with whitespace before and after it. */
  predicate IsPadded(s: string, before: string, t: string, after: string) {
    s == before + t + after && IsJsBlank(before) && IsJsBlank(after)
  }

  /** `s` is its trimmed text with the removed whitespace on either side. */
  lemma TrimSplit(s: string)
    ensures exists before, after :: IsPadded(s, before, Trim(s), after)
  {
    var k := |s| - |TrimStart(s)|;
    var t := Trim(s);
    TrimSlice(s);
    TrimTrailingBlank(s);
    SplitThree(s, k, |t|);
    assert IsPadded(s, s[..k], t, s[k + |t|..]);
  }

  /** A padded text whose middle `SignedDigits` accepts is an integer text. */
  lemma PaddedSignedDigits(s: string, before: string, t: string, after: string)
    requires IsPadded(s, before, t, after)
    requires SignedDigits(t).Some?
    ensures var sign := SignPart(t);
      IsIntegerText(s, before, sign, t[|sign|..], after)
  {
    SignedDigitsShape(t);
    var sign := SignPart(t);
    assert before + t == before + sign + t[|sign|..];
  }

  /** Conversely, a text that is not blank reads as an integer only when it is an integer
      text, and then as the integer its sign and digits denote. */
  lemma ParseIntegerShape(s: string)
    ensures ParseInteger(s).Some? && !IsJsBlank(s) ==>
      exists before, sign, digits, after :: IsIntegerText(s, before, sign, digits, after)
        && ParseInteger(s) == Some(SignedValue(sign, digits))
  {
    if ParseInteger(s).Some? && !IsJsBlank(s) {
      ParsedTrimmed(s);
      TrimmedShape(s);
    }
  }

  /** A text that is not blank reads as an integer exactly when its trimmed text does. */
  lemma ParsedTrimmed(s: string)
    requires !IsJsBlank(s)
    ensures ParseInteger(s) == SignedDigits(Trim(s))
  {
  }

  /** A text whose trimmed middle `SignedDigits` accepts is an integer text. */
  lemma TrimmedShape(s: string)
    requires SignedDigits(Trim(s)).Some?
    ensures exists before, sign, digits, after ::
      IsIntegerText(s, before, sign, digits, after) && SignedDigits(Trim(s)) == Some(SignedValue(sign, digits))
  {
    TrimSplit(s);
    var before, after :| IsPadded(s, before, Trim(s), after);
    PaddedIntegerText(s, before, Trim(s), after);
  }

  /** A text split into whitespace, a middle `SignedDigits` accepts, and whitespace is an
      integer text. */
  lemma PaddedIntegerText(s: string, before: string, t: string, after: string)
    requires IsPadded(s, before, t, after)
    requires SignedDigits(t).Some?
    ensures exists before, sign, digits, after ::
      IsIntegerText(s, before, sign, digits, after) && SignedDigits(t) == Some(SignedValue(sign, digits))
  {
    PaddedSignedDigits(s, before, t, after);
    SignedDigitsShape(t);
    SignedDigitsOfSign(SignPart(t), t[|SignPart(t)|..]);
  }

  /** Rendering an integer and parsing it back is the identity. */
  lemma ParseIntegerOfDecimal(i: int)
    ensures ParseInteger(IntToDecimal(i)) == Some(i)
  {
    var s := IntToDecimal(i);
    var d := NatToDecimal(if i < 0 then -i else i);
    assert !IsJsSpace(s[0]) && !IsJsSpace(s[|s| - 1]);
    TrimIdentity(s);
    DigitsValueOfDecimal(if i < 0 then -i else i);
    if i < 0 {
      assert s[1..] == d;
      assert !AllDigits(s) by { assert !IsDigit(s[0]); }
    }
  }
}

=== FILE: values.dfy ===
/** The loosely typed JSON-like values the native mail layer hands to the normaliser,
    with JavaScript's property access, nullish test and `String(...)` conversion. */
module Values {
  import opened Wrappers
  import opened Text

  /** The three non-finite JavaScript numbers. */
  datatype NonFiniteKind = NaN | PositiveInfinity | NegativeInfinity

  /** A JavaScript value as far as the normaliser can observe it. Finite numbers are exact
      reals; a `Date` carries its time value in milliseconds since the epoch; `Obj` holds the
      own properties of a plain object. */
  datatype Value =
    | Str(s: string)
    | Num(x: real)
    | NonFinite(kind: NonFiniteKind)
    | Bool(b: bool)
    | Date(ms: real)
    | Null
    | Undefined
    | Arr(elems: seq<Value>)
    | Obj(fields: map<string, Value>)

  /** Locale- and clock-dependent renderings supplied by the JavaScript engine:
      `localeDate(ms)` is `new Date(ms).toLocaleDateString()`, `dateText(ms)` is
      `String(new Date(ms))`, and `numberText(x)` is `String(x)` for a finite number that
      is not an integer of magnitude at most 2^53, whose shortest round-trip digits the
      engine chooses. */
  datatype Platform = Platform(
    localeDate: real -> string,
    dateText: real -> string,
    numberText: real -> string)

  /** `v === null || v === undefined`, the test behind `??`. */
  predicate IsNullish(v: Value) {
    v.Null? || v.Undefined?
  }

  /** `record[key]`: an own property of a plain object, otherwise `undefined`. No key the
      normaliser reads is a property of strings, numbers, booleans, arrays or dates. */
  function Field(v: Value, key: string): Value
  {
    if v.Obj? && key in v.fields then v.fields[key] else Undefined
  }

  /** `record[keys[0]] ?? record[keys[1]] ?? ...`, ending in `undefined`. */
  function FirstPresent(v: Value, keys: seq<string>): (r: Value)
    ensures !IsNullish(r) <==> exists i :: 0 <= i < |keys| && !IsNullish(Field(v, keys[i]))
    ensures !IsNullish(r) ==>
      exists i :: 0 <= i < |keys| && r == Field(v, keys[i])
        && forall j :: 0 <= j < i ==> IsNullish(Field(v, keys[j]))
    ensures IsNullish(r) ==> r == Undefined
  {
    FirstPresentFrom(v, keys, 0)
  }

  /** `FirstPresent` over the keys from position `k` on. */
  function FirstPresentFrom(v: Value, keys: seq<string>, k: nat): (r: Value)
    requires k <= |keys|
    ensures !IsNullish(r) <==> exists i :: k <= i < |keys| && !IsNullish(Field(v, keys[i]))
    ensures !IsNullish(r) ==>
      exists i :: k <= i < |keys| && r == Field(v, keys[i])
        && forall j :: k <= j < i ==> IsNullish(Field(v, keys[j]))
    ensures IsNullish(r) ==> r == Undefined
    decreases |keys| - k
  {
    if k == |keys| then Undefined
    else if !IsNullish(Field(v, keys[k])) then Field(v, keys[k])
    else FirstPresentFrom(v, keys, k + 1)
  }

  /** 2^53: every integer up to this magnitude is a double, and so are its neighbours, so
      `String(x)` prints all of its digits. */
  const ExactIntegerLimit: int := 9007199254740992

  /** An integer that `String(x)` prints digit for digit. */
  predicate IsExactInteger(x: real) {
    x == x.Floor as real && -ExactIntegerLimit <= x.Floor <= ExactIntegerLimit
  }

  /** `String(x)` for a finite number: an exact integer prints as its canonical decimal
      text (no leading zero, a minus sign only when negative), which `Number` reads back as
      the same integer; every other number is left to the engine. */
  function NumberText(x: real, p: Platform): (r: string)
    ensures IsExactInteger(x) ==> IsCanonicalInteger(r) && ParseInteger(r) == Some(x.Floor)
    ensures IsExactInteger(x) && x >= 0.0 ==> r != [] && AllDigits(r)
  {
    if IsExactInteger(x) then
      ParseIntegerOfDecimal(x.Floor);
      IntToDecimal(x.Floor)
    else p.numberText(x)
  }

  /** `parts.join(',')`. */
  function JoinWithComma(parts: seq<string>): string
  {
    if parts == [] then ""
    else if |parts| == 1 then parts[0]
    else parts[0] + "," + JoinWithComma(parts[1..])
  }

  /** `String(v)`. Array elements that are `null` or `undefined` become empty strings. */
  function Stringify(v: Value, p: Platform): (r: string)
    ensures v.Str? ==> r == v.s
    ensures v.Num? && IsExactInteger(v.x) ==>
      IsCanonicalInteger(r) && ParseInteger(r) == Some(v.x.Floor)
    ensures v.Null? ==> r == "null"
    ensures v.Undefined? ==> r == "undefined"
  {
    match v
    case Str(s) => s
    case Num(x) => NumberText(x, p)
    case NonFinite(k) =>
      (match k
       case NaN => "NaN"
       case PositiveInfinity => "Infinity"
       case NegativeInfinity => "-Infinity")
    case Bool(b) => if b then "true" else "false"
    case Date(ms) => p.dateText(ms)
    case Null => "null"
    case Undefined => "undefined"
    case Arr(es) =>
      JoinWithComma(seq(|es|, i requires 0 <= i < |es| =>
        if IsNullish(es[i]) then "" else Stringify(es[i], p)))
    case Obj(_) => "[object Object]"
  }
}

=== FILE: wrappers.dfy ===
/** Optional values and results with an error, used for JavaScript `undefined`/`null`
    returns and for thrown errors or rejected promises. */
module Wrappers {

  datatype Option<+T> = None | Some(value: T) {

    /** The value, or `default` when there is none (JavaScript `??`, Kotlin `?:`). */
    function GetOr(default: T): T {
      match this
      case Some(v) => v
      case None => default
    }
  }

  datatype Result<+T, +E> = Ok(value: T) | Err(error: E)
}
